=== FILE: README.md ===
# Coin_Searcher in Dafny

A functional model of the decision logic of the Coin_Searcher repository. The repository has three parts:

- An earliest-kline ingester. It records, per exchange symbol, the first daily price bar since a start date. It keeps a ledger file and a fetched-symbols file that survive repeated runs.
- A two-phase trade simulator. It replays hourly klines from a start time. If the target is not met, it hands the position's value on to a real-time monitor of the trade stream. A manager splits a budget across the last few coins of a list.
- A pair screener. It keeps the exchange's USDT pairs, checks each pair's 24-hour ticker against thresholds, and merges the lists into JSON files.

The model has no side effects, following these conventions:

- The exchange client is replaced by plain inputs:
  - the per-symbol kline outcome;
  - the hourly klines;
  - the ticker price;
  - a finite sequence of stream messages;
  - the exchange's symbol list;
  - each pair's ticker.
- A file's contents are an `Option` (`None` when the file is absent).
- A Python exception is an outcome constructor or a `None` result, never a precondition.
- Prices are `real`.
- Dates are kline open times in epoch milliseconds. The ISO strings written to the ledger sort like these integers.
- "Today" is a parameter: today's local midnight in milliseconds.

The older copies under `Real_Time_Test/` are modelled in modules named `Legacy…`:

- Real_Time_Test/find_coins.py lines 58-176 are the same code as find_coins/DataFetcher.py and find_coins/DataProcessor.py, and use the same members (`DataFetcher.*`, `DataProcessor.SortAndPrepareData`, `DataProcessor.AppendDataToSymbols`).
- Where the copies differ, each version has its own member, and lemmas state both where they agree and an input on which they differ:
  - the fetched-list merge;
  - raw price against position value;
  - the empty-kline guard;
  - the "today" test.

Python's `sorted` is modelled as a stable insertion sort (`StableSort`). `StableSort.StableSortIsUnique` shows that any key-sorted result that keeps equal-key elements in input order equals it, so the model agrees with Python's sort whatever algorithm Python uses. `list(a_set)` is `Seqs.SetToList`: a duplicate-free listing whose order is left open.

Three behaviours of the code are worth stating plainly, because they are easy to assume otherwise:

- The ledger merge does not de-duplicate. `DataProcessor.MergeTwiceDuplicates` shows a second merge of the same batch adding every record again.
- The replay compares the position's value, not the price, with the target. 1000 USD bought at an open of 40000 is 0.025 coins, so closes from 40500 to 42500 never make it worth 50000 USD. `HistoricalReplay.QuarterPercentPositionCarriesForward` shows 1062.5 carried forward. The repository's own test with these opens, closes, amount and target (tests/test_historical_trade_simulator.py:24-36) expects a sale.
- A symbol repeated within one batch gets only one result when the batch runs sequentially (`DataFetcher.FetchAllKlinesDistinct`). The source runs the fetches in a thread pool without a lock, so this holds only as modelled.

## Model

| member | source | states |
|---|---|---|
| DataFetcher.FetchKline | find_coins/DataFetcher.py:38-53 | An already-fetched symbol gives `None` without calling the client. Otherwise a result exists exactly when the client returns a non-empty kline list. The result is the first kline's date and open/high/low/close, and the symbol joins the fetched set. An empty list or a client exception leaves the set unchanged. |
| DataFetcher.GetSymbols | find_coins/DataFetcher.py:55-60 | The instruments in exchange order. With a limit it is the prefix `symbols[:limit]`, with Python's slice lengths (negative limits count from the end); with no limit it is the whole list. |
| DataFetcher.FetchEach | find_coins/DataFetcher.py:62-65 | One outcome per listed instrument, and the fetched set only grows. |
| DataFetcher.FetchAllKlines | find_coins/DataFetcher.py:62-67 | The fetched set only grows, and there are never more results than instruments. |
| DataFetcher.FetchAllKlinesInOrder | find_coins/DataFetcher.py:62-67 | The results' instruments form a subsequence of the input list: input order is kept and failures are dropped. |
| DataFetcher.FetchAllKlinesRecords | find_coins/DataFetcher.py:39-51 | Every result is for a symbol not fetched before, with non-empty klines, and equals that symbol's first-kline record. The fetched set afterwards is the old set plus exactly the results' symbols. |
| DataFetcher.FetchAllKlinesDistinct | find_coins/DataFetcher.py:40-50 | No symbol gets two results in one batch, even if the universe lists it twice. |
| DataFetcher.FetchAllKlinesComplete | find_coins/DataFetcher.py:44-51 | A listed symbol that was not yet fetched and has klines always ends up in the fetched set. |
| DataProcessor.SortAndPrepareData | find_coins/DataProcessor.py:29-41 | One record per result, relabelled `base/quote` with the prices copied. The records are ascending by date and a permutation of the relabelled input. Records with equal dates keep their input order. |
| DataProcessor.PreparedRecordsFaithful | find_coins/DataProcessor.py:31-40 | For every result, the record with symbol `base + "/" + quote` and unchanged date, open, high, low and close is among the prepared records. |
| DataProcessor.AppendDataToSymbols | find_coins/DataProcessor.py:55-68 | A missing or empty ledger is replaced by the new data exactly as given. Otherwise the ledger becomes a date-sorted permutation of `existing ++ new` of length \|existing\| + \|new\|, with equal dates in concatenation order. |
| DataProcessor.MergeTwiceDuplicates | find_coins/DataProcessor.py:64-65 | Merging the same batch a second time adds all of its records again: the length grows by the batch size and every record's count grows by its count in the batch. |
| DataProcessor.AppendDataToFetchedSymbols | find_coins/DataProcessor.py:81-93 | The written list has no duplicates. It is the first-seen de-duplication of `existing ++ new`. Its symbols are exactly the old ones plus the batch's, and the de-duplicated existing list is a prefix of it. |
| DataProcessor.FetchedSymbolsFirstSeenOrder | find_coins/DataProcessor.py:81-88 | The symbols after the existing prefix are new batch symbols, in the order they were first met in the batch. |
| FindCoins.LoadFetchedSymbols | find_coins/DataFetcher.py:31-35 | The fetched set holds exactly the symbols of the fetched-symbols file, and is empty when the file is absent. |
| FindCoins.FetchKlinesData | find_coins/find_coins.py:19-24 | A run always leaves both the ledger file and the fetched-symbols file present. |
| FindCoins.RunFetchesOnlyNewSymbolsOfTheTruncatedUniverse | find_coins/find_coins.py:20-21 | Results come from the truncated universe in its order, and none is for a symbol in the fetched file. |
| FindCoins.RunAppendsFetchedSymbols | find_coins/find_coins.py:21-24 | The new fetched list is the de-duplicated old list followed by this run's result symbols, in fetch order and not date order. |
| FindCoins.RunAddsOneRecordPerResult | find_coins/find_coins.py:21-23 | The ledger gains exactly one record per result, so exactly one per symbol appended to the fetched list. The ledger stays sorted by date. |
| FindCoins.NeverRefetched | find_coins/find_coins.py:21-24 | In a following run, no result is for a symbol recorded before or fetched in this run. |
| LegacyFindCoins.AppendDataToFetchedSymbols | Real_Time_Test/find_coins.py:188-198 | With a file, the written list has no duplicates and its set is old ∪ new, in an order left open. With no file, the batch's symbols are written verbatim. |
| LegacyFindCoins.FetchKlinesData | Real_Time_Test/find_coins.py:210-214 | A run always leaves both files present. The fetched set it skips comes from a fixed path read at start-up, which need not be the file the run writes. |
| LegacyFindCoins.LegacyRunLedger | Real_Time_Test/find_coins.py:153-176 | Whichever file the fetched set was read from, the ledger gains exactly one record per result of the batch, and an existing ledger stays sorted by date. |
| LegacyFindCoins.LegacyRunFetched | Real_Time_Test/find_coins.py:187-198 | The written fetched list holds exactly the symbols of the written file before the run plus the results' symbols. |
| LegacyFindCoins.LegacyRunSkipsLoaded | Real_Time_Test/find_coins.py:53-74 | No result is for a symbol of the file read at start-up. |
| LegacyFindCoins.AgreesWithFindCoinsUpToOrder | Real_Time_Test/find_coins.py:187-198 | When the file read is the file written, the older copy leaves the same ledger as find_coins/ and a duplicate-free fetched list with the same symbols. |
| LegacyFindCoins.RefetchesSymbolsMissingFromLoadedFile | Real_Time_Test/find_coins.py:53-56 | A listed symbol missing from the start-up file is fetched again whenever it has klines, whatever the written file holds. |
| StableSort.SortBy | find_coins/DataProcessor.py:29 | `sorted(key=)` returns a permutation of its input of the same length, ascending by key. |
| StableSort.SortByStable | find_coins/DataProcessor.py:65 | For every key value, the elements with that key appear in their input order. |
| StableSort.StableSortIsUnique | find_coins/DataProcessor.py:29 | A key-sorted sequence whose key groups match the input's is exactly the sort's result. |
| Seqs.AddKeys | find_coins/DataProcessor.py:82-88 | An `OrderedDict` key list after `update`: the old keys stay as a prefix. The keys are old ∪ new, no duplicates are introduced, and every appended key is new. |
| Seqs.SetToList | Real_Time_Test/find_coins.py:193-195 | `list(set)` lists every element of the set exactly once. |
| Seqs.Filter | src/get_all_trading_pairs.py:27-28 | A list comprehension with a condition keeps only passing elements of its input, keeps every passing one, and keeps them as a subsequence in input order. |
| Seqs.FilterCounts | src/get_all_trading_pairs.py:27-28 | The comprehension keeps each passing element exactly as often as it occurs in the input, and no failing one. |
| Seqs.TryFilter | main_search.py:31-32 | A list comprehension whose condition may raise produces no list exactly when the condition raises on some element. Otherwise the list is the plain comprehension over the elements the condition returned true for. |
| Seqs.Somes | find_coins/DataFetcher.py:66 | Wrapping the kept values in `Some` again gives exactly the present entries of the input, in order and with their multiplicities. |
| Seqs.PyPrefix | find_coins/DataFetcher.py:59 | `s[:stop]` is a prefix of `s` whose length is the normalised stop bound. |
| Seqs.PySuffix | main.py:25 | `s[start:]` is a suffix of `s` whose length is the list length minus the normalised start bound. |
| Seqs.PySliceSplit | main.py:25 | `s[:i] + s[i:] == s` for every integer `i`, negative or out of range. |
| Seqs.FirstIndex | simulation/historical_trade_simulator.py:29-37 | An in-order scan stops at the first element passing the test. No earlier element passes, and it finds nothing exactly when no element passes. |
| Decorators.Retry | find_coins/decorators.py:22-36 | At most `max_retries` calls are made, and every call before the last one raised. It returns the first returned value, and no call follows a success. It returns `None` exactly when every one of the `max_retries` attempts raises, after making all of them. |
| Decorators.RetryOfTotalCall | find_coins/decorators.py:29-31 | A call that never raises is made exactly once and its value returned. No call is made when the count is below one. |
| Decorators.TimerDecorator | find_coins/decorators.py:8-20 | The wrapped call's result passes through unchanged, with one log event for the time between the two clock readings. |
| Decorators.LoggingDecorator | find_coins/decorators.py:38-48 | The wrapped call's result passes through unchanged. The log holds exactly two events: first the call's name with the arguments it was given, then the name with the value it returned. |
| Decorators.LoggedCallsAreDistinguishable | find_coins/decorators.py:43-46 | Two logged calls with the same log were made under the same name, with the same arguments, and returned the same result. |
| HistoricalReplay.SimulateTrade | simulation/historical_trade_simulator.py:14-41 | Empty klines mean "did not exist", and a zero first open raises. Otherwise, with quantity = amount / first open, the target is reached exactly when some close gives quantity × close ≥ target, at the first such kline. If none does, it carries quantity × last close forward. |
| HistoricalReplay.CarryIsBelowTarget | simulation/historical_trade_simulator.py:29-41 | Any amount carried forward is strictly below the target. |
| HistoricalReplay.ReturnValue | simulation/historical_trade_simulator.py:17-41 | The function returns a value exactly when it carries forward, and the value is the carried amount. |
| HistoricalReplay.MissingAndReachedLookAlike | simulation/historical_trade_simulator.py:17-37 | "Did not exist" and "target reached" both return `None`. |
| HistoricalReplay.QuarterPercentPositionCarriesForward | simulation/historical_trade_simulator.py:21-41 | 1000 USD at an open of 40000, with closes 40500 to 42500 and a target of 50000, carries 1062.5 forward rather than selling. |
| LegacyHistoricalReplay.SimulateTrade | Real_Time_Test/simulation/historical_trade_simulator.py:12-30 | Empty klines or a zero first open raise. The target is reached exactly when some raw close ≥ target, at the first such kline. Otherwise every close was below the target and quantity × last close is carried. |
| LegacyHistoricalReplay.AgreesWhenOneCoinIsBought | Real_Time_Test/simulation/historical_trade_simulator.py:17-26 | When the amount equals the first open (one coin), the older replay and the current one reach the same outcome. |
| LegacyHistoricalReplay.ThresholdsDiffer | Real_Time_Test/simulation/historical_trade_simulator.py:22-30 | 1000 USD at 1 closing at 2 with target 100: the current replay sells on the first kline, while the older one carries 2000 forward, above the target. |
| LegacyHistoricalReplay.EmptyHistoryDiffers | Real_Time_Test/simulation/historical_trade_simulator.py:17 | On empty klines the current replay reports "did not exist" and the older one raises. |
| RealTimeMonitor.ProcessMessage | simulation/real_time_trade_simulator.py:14-24 | An error message logs its text and does not close the stream. A trade logs its price and closes the stream exactly when quantity × price ≥ target, logging a sale of the fixed quantity. |
| RealTimeMonitor.Delivered | simulation/real_time_trade_simulator.py:38-40 | The receive loop hands over a prefix of the stream. Only the last message of that prefix may close it, and the prefix is shorter than the stream only if that message closed it. |
| RealTimeMonitor.SimulateTrade | simulation/real_time_trade_simulator.py:26-40 | A zero ticker price raises. Otherwise quantity = amount / ticker price, fixed once. The stream closes exactly when some trade has quantity × price ≥ target, at the first such message, and every earlier message was an error or below target. |
| RealTimeMonitor.SalesUseFixedQuantity | simulation/real_time_trade_simulator.py:14-24 | Every sale logged while messages are handled is for the quantity fixed before subscribing. |
| RealTimeMonitor.BelowTargetOnlyLogsPrice | simulation/real_time_trade_simulator.py:18-19 | A trade below target only logs the current price. |
| RealTimeMonitor.ClosingMessageEndsTranscript | simulation/real_time_trade_simulator.py:19-22 | The stream is closed on the message the monitor reports, and the last line logged up to then is the sale. |
| LegacyRealTimeMonitor.ProcessMessage | Real_Time_Test/simulation/real_time_trade_simulator.py:12-20 | An error message logs its text and keeps the socket. A trade logs its price and stops the socket exactly when its raw price ≥ target. |
| LegacyRealTimeMonitor.SimulateTrade | Real_Time_Test/simulation/real_time_trade_simulator.py:22-34 | A zero ticker price raises. Otherwise the quantity is fixed from the ticker price, and the socket stops at the first trade priced at or above the target. |
| LegacyRealTimeMonitor.AgreesWhenOneCoinIsBought | Real_Time_Test/simulation/real_time_trade_simulator.py:12-28 | When one coin is bought, both monitors end the same way on every stream. |
| LegacyRealTimeMonitor.ThresholdsDiffer | Real_Time_Test/simulation/real_time_trade_simulator.py:16 | 50 USD at 0.5 with a trade at 2 and target 150: the current monitor closes and the older one keeps listening. |
| CoinSimulation.SimulateCoinTrade | simulation/coin_simulation.py:10-39 | A client failure runs nothing. A start equal to today's midnight runs only real time, with the full amount. Otherwise the replay runs once, and real time follows exactly when it carries an amount forward, with that amount. There is never more than one real-time run. |
| CoinSimulation.HandoffOnlyBelowTarget | simulation/coin_simulation.py:26-37 | The real-time run after a replay always starts with money short of the target. A replay that raised, sold or found no history is never followed by real time. |
| LegacyCoinSimulation.DayNumber | Real_Time_Test/simulation/coin_simulation.py:17 | `date()` as a whole-day count from local midnight: day `d` is exactly the times from the `d`-th midnight up to the next one. |
| LegacyCoinSimulation.IsToday | Real_Time_Test/simulation/coin_simulation.py:17 | A start time passes exactly when its date is today's date. |
| LegacyCoinSimulation.SimulateCoinTrade | Real_Time_Test/simulation/coin_simulation.py:10-37 | As the current orchestrator with the older simulators, except that a start anywhere on today's date runs only real time. There is at most one real-time run. |
| LegacyCoinSimulation.TodayChecksDiffer | Real_Time_Test/simulation/coin_simulation.py:17 | A start one hour after today's midnight replays history in the current orchestrator but goes straight to real time in the older one. |
| LegacyCoinSimulation.TodayChecksAgreeAtMidnight | Real_Time_Test/simulation/coin_simulation.py:17-23 | A start exactly at midnight goes straight to real time with the full amount in both. |
| SimulationManager.LoadCoins | main.py:19-23 | A missing coins file gives an empty list. |
| SimulationManager.SelectCoins | main.py:25 | `coins[-num_coins:]` is a suffix of length min(num_coins, len) for num_coins ≥ 1, and the whole list for num_coins = 0. |
| SimulationManager.StartSimulations | main.py:18-38 | An empty selection divides by zero. Otherwise one simulation per selected coin, in list order, each with amount / \|selection\|. |
| SimulationManager.MissingCoinsFileFails | main.py:19-28 | A missing coins file always ends in the division by zero. |
| SimulationManager.SharesSumToBudget | main.py:28-38 | The per-coin shares add up to the whole budget. |
| BinanceWork.CalculateVolatility | Searcher/src/binance_work.py:32-46 | A parsable percentage gives a value that is one hundredth of it; an unparsable one gives 0.0. |
| BinanceWork.GetTradingPairs | Searcher/src/binance_work.py:48-75 | A request or parse error gives `None`. Otherwise it keeps the symbols ending in `USDT`, each as often as the exchange lists it, as a subsequence in exchange order. |
| BinanceWork.GetSymbolData | Searcher/src/binance_work.py:77-109 | No ticker, or no `priceChangePercent`, gives `None`. Otherwise the record has symbol = pair, liquidity = quote volume, price change copied, and volatility derived from the percentage. |
| BinanceWork.UsdtSuffixExamples | Searcher/src/binance_work.py:72 | `BTCUSDT` is kept; `USDTBTC` and `SDT` are not. |
| Criteria.MeetsCriteria | Searcher/src/criterias.py:17-33 | True exactly when status is `TRADING`, volume > 5000, liquidity > 10000 and the percentage > 5, all strict. It raises exactly when a missing or unparsable value is reached in clause order. |
| Criteria.MeetsCriterias | Searcher/src/criterias.py:37-47 | No data gives False; otherwise the record's verdict. |
| Criteria.ScreenPair | Searcher/src/criterias.py:37-47 | A pair passes exactly when its ticker exists and its status, volume, quote volume and parsable percentage clear the thresholds. A missing ticker, or one without `priceChangePercent`, gives False. |
| Criteria.BoundariesFail | Searcher/src/criterias.py:27-31 | Volume exactly 5000, liquidity exactly 10000 or a change of exactly 5 percent fails. |
| SymbolCriteria.MeetsCriteria | src/criterias.py:3-21 | True exactly when status is `TRADING`, base precision is 8, the quote asset is `USDT` and the percentage is ≥ 10. It raises only on an unparsable percentage after the first three clauses pass. |
| SymbolCriteria.TenPercentPasses | src/criterias.py:17-18 | Exactly 10 percent passes; 9.99 fails. |
| MainSearch.LoadValidData | main_search.py:5-14 | With a file, it writes a duplicate-free list whose set is old ∪ data; with no file, the data verbatim. |
| MainSearch.UpdateData | main_search.py:16-29 | With a file, it returns and writes a duplicate-free list whose set is old ∪ fetched; with no file, the fetched list verbatim. |
| MainSearch.GetValidPairs | main_search.py:31-32 | It raises exactly when screening some pair raises. Otherwise it returns the passing pairs, each as often as it occurs in the input, as a subsequence of the input. |
| MainSearch.GetAllTradingPairs | main_search.py:34-48 | The trading-pairs file holds the updated list whether or not a screen raises. A run raises exactly when screening a pair of that list raises, and then the valid-pairs file is left as it was. Otherwise the valid-pairs file is written. |
| MainSearch.ValidPairsFileOnlyGainsScreenedPairs | main_search.py:45-48 | Every pair in the new valid-pairs file was there before, or is a known or fetched pair that passes the screen. |
| MainSearch.ValidPairsFileKeepsOldAndScreenedPairs | main_search.py:45-48 | A run that does not raise keeps every pair the valid-pairs file held and adds every known or fetched pair that passes the screen. |
| TradingPairLists.LoadOrFetchData | src/get_all_trading_pairs.py:5-13 | An existing file is returned without fetching. A missing one is fetched, written and returned. |
| TradingPairLists.UpdateData | src/get_all_trading_pairs.py:15-25 | With a file, the input list is a prefix of the result. It is followed, once each, by exactly its own elements the file lacks, and nothing is written. With no file, the fetch result is returned and written, and a raising fetch raises. |
| TradingPairLists.UpdateKeepsKnownData | src/get_all_trading_pairs.py:19-20 | If the file holds every element of the list, the result equals the list. |
| TradingPairLists.UpdateDuplicatesNewElements | src/get_all_trading_pairs.py:19-20 | An element of the list that the file lacks occurs once more in the result, so at least twice. |
| TradingPairLists.GetValidPairs | src/get_all_trading_pairs.py:27-28 | It keeps the accepted pairs, each as often as it occurs, as a subsequence. |
| TradingPairLists.GetAllTradingPairs | src/get_all_trading_pairs.py:30-47 | The pipeline raises exactly when `valid_pairs.json` is missing, because `get_valid_pairs` is then called without its argument. A missing trading-pairs file has been written with the fetched list either way, and the valid-pairs file is never written. |
| TradingPairLists.PipelineScreensLoadedList | src/get_all_trading_pairs.py:41-45 | The trading-pair list is not extended by its own update, because the file it is checked against holds it. The valid pairs returned start with the screened loaded list, which on a fresh start is the fetched list. |

## Left out

- File and environment I/O are not modelled: JSON reading and writing, `os.path.exists`/`os.stat`, `os.getenv`, `load_dotenv`. File contents are `Option` inputs and outputs. A zero-byte fetched-symbols file, which `json.load` rejects, is not modelled.
- The exchange client is not modelled: REST calls, WebSockets, `get_symbol_ticker`, and the rate-limit sleep loop of `get_trading_pairs`. That loop's 429/418 branch cannot be reached after `raise_for_status`. Klines, tickers, stream messages and symbol lists are inputs.
- Concurrency is not modelled: the thread pool in `fetch_all_klines`, the asyncio task fan-out in main.py, and threads per coin. Everything is sequential, and `executor.map` keeps input order. Races on the shared fetched set are out of scope.
- simulation/coin_simulation.py calls the async `simulate_trade` methods without `await`. The model follows the intended branch logic, not coroutine objects.
- Floating point is modelled as `real`, so there is no rounding.
- Date and time conversion is left out: `fromtimestamp`, `isoformat`, local time zones and daylight-saving days. A day is 86,400,000 ms from local midnight.
- Logging text, timing and configuration constants are left out. Logs are lists of events.
- The behaviour of the real-time monitor after it closes its stream is not modelled: the receive loop of simulation/real_time_trade_simulator.py keeps calling `recv`. Streams are finite sequences, so "still listening" is a result.
- The legacy monitor subscribes to the 24-hour ticker stream. The model takes the `p` field as a trade price, as the code does.
- Type mismatches between modules are left out:
  - The volume is a string from binance_work.py but compared as a number in criterias.py. The model types it as a number.
  - src/get_all_trading_pairs.py imports a `meets_criterias` that src/criterias.py does not define, so its screen is a parameter.
  - src/get_trading_pairs.py applies a dictionary screen to strings. It is not modelled.
- A `None` returned by `get_trading_pairs` is not threaded through `update_data` and `load_or_fetch_data`. Both pair-list pipelines take the fetched list as a list.
- Missing dictionary keys in `src/criterias.py` records are not modelled, because the record is typed. A non-string, non-numeric `priceChangePercent` (a `TypeError` in `float`) is not modelled either.
- FindCoins.FetchKlinesData: its own contract only states that both files are written. What the run writes is stated by the lemmas that follow it in the table.
- MainSearch.GetAllTradingPairs: its own contract does not state what the written valid-pairs file holds. `MainSearch.ValidPairsFileOnlyGainsScreenedPairs` gives the upper bound and `MainSearch.ValidPairsFileKeepsOldAndScreenedPairs` gives the lower bound. Together they fix the file's set of pairs exactly.
- LegacyFindCoins.FetchKlinesData: its own contract only states that both files are written. What they hold is stated by `LegacyFindCoins.LegacyRunLedger`, `LegacyFindCoins.LegacyRunFetched` and `LegacyFindCoins.LegacyRunSkipsLoaded`.
- Client exceptions raised inside the simulators are not modelled. `Feed.clientOk` covers only the client's construction, and the feed always supplies the klines and the ticker price. In the code, an exception from `get_historical_klines` or `get_symbol_ticker` would end that simulator the way its `Raised` or `MonitorRaised` outcome does (a zero open or a zero ticker), but the model does not distinguish the two causes.
- FindCoins.NeverRefetched: this lemma, and every `FindCoins` member, assume that the fetcher reads its fetched set from the same file the run writes. The code does not guarantee this. find_coins/DataFetcher.py:4 imports the path from `main_config`, which defines no such module-level name, so that import fails as written. find_coins/find_coins.py:4 takes the written path from `config_logs.config`. The older copy, where the two files really are separate, is modelled with separate files in `LegacyFindCoins`.
- Python's slice-bound normalisation (`Seqs.SliceBound`) and the `range` count in the retry decorator (`Decorators.RetryBound`) are helpers with definitional contracts. Slices are covered by `Seqs.PyPrefix`, `Seqs.PySuffix` and `Seqs.PySliceSplit`, and the retry count by `Decorators.Retry`.

=== FILE: binance_work.dfy ===
/**
 Searcher/src/binance_work.py `BinanceClient`: the pure parts of the pair
 screener's exchange access. The exchange's answers are inputs: the symbol
 list of `/exchangeInfo` (absent when the request or its parsing failed) and
 the 24-hour ticker of a pair (absent when the API raised).
 */
module BinanceWork {
  import opened Wrappers
  import opened Seqs

  /** A ticker field as `float()` reads it: a number, or a string it rejects with `ValueError`. */
  datatype Numeric = Num(value: real) | NotANumber

  /** The fields of a 24-hour ticker the screener reads; a missing key is `None`. */
  datatype TickerStats = TickerStats(
    status: Option<string>,
    volume: Option<real>,
    quoteVolume: Option<real>,
    priceChangePercent: Option<Numeric>,
    priceChange: Option<real>)

  /** The record `get_symbol_data` builds for a pair. */
  datatype TradingPair = TradingPair(
    symbol: string,
    status: Option<string>,
    volume: Option<real>,
    liquidity: Option<real>,
    priceChangePercent: Numeric,
    volatility: real,
    priceChange: Option<real>)

  /** `calculate_volatility`: the percentage as a fraction, or 0.0 when it does not parse. */
  function CalculateVolatility(priceChangePercent: Numeric): (v: real)
    ensures priceChangePercent.Num? ==> v * 100.0 == priceChangePercent.value
    ensures priceChangePercent.NotANumber? ==> v == 0.0
  {
    match priceChangePercent
    case Num(p) => p / 100.0
    case NotANumber => 0.0
  }

  /** `s.endswith(suffix)` */
  predicate EndsWith(s: string, suffix: string)
  {
    |suffix| <= |s| && s[|s| - |suffix|..] == suffix
  }

  predicate IsUsdtPair(symbol: string)
  {
    EndsWith(symbol, "USDT")
  }

  /** `get_trading_pairs`: the exchange's symbols quoted in USDT, in exchange order; `None` on an error. */
  function GetTradingPairs(symbols: Option<seq<string>>): (r: Option<seq<string>>)
    ensures r.None? <==> symbols.None?
    ensures r.Some? ==> IsSubseq(r.value, symbols.value)
    ensures r.Some? ==> forall i :: 0 <= i < |r.value| ==> IsUsdtPair(r.value[i])
    ensures r.Some? ==> forall i :: 0 <= i < |symbols.value| && IsUsdtPair(symbols.value[i]) ==> symbols.value[i] in r.value
    ensures r.Some? ==> forall i :: 0 <= i < |symbols.value| ==>
              multiset(r.value)[symbols.value[i]] == if IsUsdtPair(symbols.value[i]) then multiset(symbols.value)[symbols.value[i]] else 0
  {
    match symbols
    case None => None
    case Some(s) =>
      FilterCounts(s, IsUsdtPair);
      Some(Filter(s, IsUsdtPair))
  }

  /**
   `get_symbol_data`: `None` when the ticker request raised or has no
   `priceChangePercent`; otherwise the pair's record, with the quote volume
   as liquidity and the volatility derived from the percentage.
   */
  function GetSymbolData(pair: string, stats: Option<TickerStats>): (r: Option<TradingPair>)
    ensures r.Some? <==> stats.Some? && stats.value.priceChangePercent.Some?
    ensures r.Some? ==>
              && r.value.symbol == pair
              && r.value.status == stats.value.status
              && r.value.volume == stats.value.volume
              && r.value.liquidity == stats.value.quoteVolume
              && r.value.priceChange == stats.value.priceChange
              && Some(r.value.priceChangePercent) == stats.value.priceChangePercent
              && r.value.volatility == CalculateVolatility(r.value.priceChangePercent)
  {
    match stats
    case None => None
    case Some(t) =>
      match t.priceChangePercent
      case None => None
      case Some(p) =>
        Some(TradingPair(pair, t.status, t.volume, t.quoteVolume, p, CalculateVolatility(p), t.priceChange))
  }

  /** A symbol is kept exactly when its last four characters are `USDT`. */
  lemma UsdtSuffixExamples()
    ensures IsUsdtPair("BTCUSDT") && !IsUsdtPair("USDTBTC") && !IsUsdtPair("SDT")
  {
    assert "BTCUSDT"[3..] == "USDT";
    assert "USDTBTC"[3..] != "USDT" by { assert "USDTBTC"[3..][0] == 'T'; }
  }
}

=== FILE: coin_simulation.dfy ===
/**
 simulation/coin_simulation.py `simulate_coin_trade`: the branch logic that
 decides which simulators run for one coin and with how much money. The
 result is the list of simulator runs in the order they are started, each
 with the amount it was given and how it ended. Exceptions inside a run are
 part of its outcome; the orchestrator catches and logs them.
 */
module CoinSimulation {
  import opened Wrappers
  import opened Market
  import HistoricalReplay
  import RealTimeMonitor

  /** One simulator run: the amount handed to it and its outcome. */
  datatype Call = HistoricalCall(amount: real, replay: Replay) | RealTimeCall(amount: real, monitoring: Monitoring)

  /**
   What the exchange gives the simulators for one coin: whether the client
   could be built, the hourly klines since the start time, the ticker price
   and the trade stream.
   */
  datatype Feed = Feed(clientOk: bool, hourly: seq<Kline>, tickerPrice: real, ticks: seq<Tick>)

  /** Number of real-time runs among `calls`. */
  function RealTimeRuns(calls: seq<Call>): nat
  {
    if |calls| == 0 then 0 else (if calls[0].RealTimeCall? then 1 else 0) + RealTimeRuns(calls[1..])
  }

  /** A real-time run started with `amount`. */
  function RealTime(amount: real, target: real, feed: Feed): Call
  {
    RealTimeCall(amount, RealTimeMonitor.SimulateTrade(amount, target, feed.tickerPrice, feed.ticks))
  }

  /**
   `simulate_coin_trade`. `todayMidnight` is today's local midnight in epoch
   milliseconds; a start time equal to it goes straight to the real-time
   monitor, any other replays history first.
   */
  function SimulateCoinTrade(startTime: int, amount: real, target: real, todayMidnight: int, feed: Feed): (calls: seq<Call>)
    ensures !feed.clientOk ==> calls == []
    ensures feed.clientOk && startTime == todayMidnight ==> calls == [RealTime(amount, target, feed)]
    ensures feed.clientOk && startTime != todayMidnight ==>
              var replay := HistoricalReplay.SimulateTrade(feed.hourly, amount, target);
              && 1 <= |calls| <= 2
              && calls[0] == HistoricalCall(amount, replay)
              && (|calls| == 2 <==> replay.CarryForward?)
              && (|calls| == 2 ==> calls[1] == RealTime(replay.amount, target, feed))
    ensures RealTimeRuns(calls) <= 1
  {
    if !feed.clientOk then []
    else if startTime == todayMidnight then [RealTime(amount, target, feed)]
    else
      var replay := HistoricalReplay.SimulateTrade(feed.hourly, amount, target);
      match HistoricalReplay.ReturnValue(replay)
      case Some(carry) =>
        var calls := [HistoricalCall(amount, replay), RealTime(carry, target, feed)];
        assert calls[1..][1..] == [];
        assert RealTimeRuns(calls[1..]) == 1;
        calls
      case None => [HistoricalCall(amount, replay)]
  }

  /**
   The real-time phase after a replay starts only with money short of the
   target, and never after the replay raised, sold, or found no history.
   */
  lemma HandoffOnlyBelowTarget(startTime: int, amount: real, target: real, todayMidnight: int, feed: Feed)
    requires startTime != todayMidnight
    ensures var calls := SimulateCoinTrade(startTime, amount, target, todayMidnight, feed);
      forall i :: 1 <= i < |calls| ==> calls[i].RealTimeCall? && calls[i].amount < target
    ensures var replay := HistoricalReplay.SimulateTrade(feed.hourly, amount, target);
      replay.Raised? || replay.TargetReached? || replay.DidNotExist? ==>
        |SimulateCoinTrade(startTime, amount, target, todayMidnight, feed)| <= 1
  {
    var replay := HistoricalReplay.SimulateTrade(feed.hourly, amount, target);
    if feed.clientOk && replay.CarryForward? {
      HistoricalReplay.CarryIsBelowTarget(feed.hourly, amount, target);
    }
  }
}

=== FILE: criteria.dfy ===
/**
 Searcher/src/criterias.py: the screen a pair's 24-hour record must pass.
 A verdict is `Some(b)` for a returned boolean and `None` when the check
 raises: comparing a missing volume or liquidity with a number, or
 `float()` on a percentage it cannot parse.
 */
module Criteria {
  import opened Wrappers
  import opened BinanceWork

  const MinVolume: real := 5000.0
  const MinLiquidity: real := 10000.0
  const MinPriceChangePercent: real := 5.0

  /**
   `TradingPair.meets_criteria`: the status must be `TRADING`, volume and
   liquidity must exceed their minimums, and the price change percentage must
   exceed 5, each strictly; the clauses are tried in that order.
   */
  function MeetsCriteria(pair: TradingPair): (r: Option<bool>)
    ensures r == Some(true) <==>
              && pair.status == Some("TRADING")
              && pair.volume.Some? && pair.volume.value > MinVolume
              && pair.liquidity.Some? && pair.liquidity.value > MinLiquidity
              && pair.priceChangePercent.Num? && pair.priceChangePercent.value > MinPriceChangePercent
    ensures r.None? <==>
              && pair.status == Some("TRADING")
              && (|| pair.volume.None?
                  || (pair.volume.value > MinVolume
                      && (|| pair.liquidity.None?
                          || (pair.liquidity.value > MinLiquidity && pair.priceChangePercent.NotANumber?))))
  {
    if pair.status != Some("TRADING") then Some(false)
    else if pair.volume.None? then None
    else if !(pair.volume.value > MinVolume) then Some(false)
    else if pair.liquidity.None? then None
    else if !(pair.liquidity.value > MinLiquidity) then Some(false)
    else match pair.priceChangePercent
      case NotANumber => None
      case Num(p) => Some(p > MinPriceChangePercent)
  }

  /** `meets_criterias`: a pair without data fails; otherwise the record is checked. */
  function MeetsCriterias(data: Option<TradingPair>): (r: Option<bool>)
    ensures data.None? ==> r == Some(false)
    ensures data.Some? ==> r == MeetsCriteria(data.value)
  {
    match data
    case None => Some(false)
    case Some(pair) => MeetsCriteria(pair)
  }

  /**
   `meets_criterias(symbol)`: the screen applied to a pair through its ticker.
   A pair passes exactly when its ticker exists, is `TRADING`, has volume
   above 5000, quote volume above 10000 and a parsable price change above 5
   percent; a missing ticker or a ticker without a price change fails quietly.
   */
  function ScreenPair(pair: string, stats: Option<TickerStats>): (r: Option<bool>)
    ensures r == Some(true) <==>
              && stats.Some?
              && stats.value.status == Some("TRADING")
              && stats.value.volume.Some? && stats.value.volume.value > 5000.0
              && stats.value.quoteVolume.Some? && stats.value.quoteVolume.value > 10000.0
              && stats.value.priceChangePercent.Some?
              && stats.value.priceChangePercent.value.Num?
              && stats.value.priceChangePercent.value.value > 5.0
    ensures (stats.None? || stats.value.priceChangePercent.None?) ==> r == Some(false)
  {
    MeetsCriterias(GetSymbolData(pair, stats))
  }

  /** The thresholds are strict: a change of exactly 5 percent, or volume exactly 5000, fails. */
  lemma BoundariesFail(pair: TradingPair)
    requires pair.status == Some("TRADING")
    ensures pair.volume == Some(5000.0) ==> MeetsCriteria(pair) == Some(false)
    ensures (pair.volume.Some? && pair.volume.value > 5000.0 && pair.liquidity == Some(10000.0))
              ==> MeetsCriteria(pair) == Some(false)
    ensures (&& pair.volume.Some? && pair.volume.value > 5000.0
             && pair.liquidity.Some? && pair.liquidity.value > 10000.0
             && pair.priceChangePercent == Num(5.0))
              ==> MeetsCriteria(pair) == Some(false)
  {
  }
}

=== FILE: data_fetcher.dfy ===
/**
 The earliest-kline fetcher of find_coins/DataFetcher.py. The exchange client
 is a per-symbol outcome of the daily-kline request at the run's start date;
 the `fetched_symbols` set the fetcher carries is threaded through explicitly.
 The thread pool's `executor.map` keeps input order, so the batch is modelled
 as a sequential left-to-right pass.
 */
module DataFetcher {
  import opened Wrappers
  import opened Seqs
  import opened Market

  /** What `get_historical_klines(symbol, 1d, start_date)` does: return klines, or raise. */
  datatype KlineFetch = Klines(klines: seq<Kline>) | FetchError

  /** The exchange's answer for each symbol at the run's start date. */
  type Client = string -> KlineFetch

  /** `(symbol_info, date, open, high, low, close)` of the first kline; `date` is its open time. */
  datatype FetchResult = FetchResult(info: Instrument, date: int, open: real, high: real, low: real, close: real)

  /** One `fetch_kline` call: its return value, the fetched set afterwards, and whether the client was asked. */
  datatype FetchStep = FetchStep(result: Option<FetchResult>, fetched: set<string>, clientCalled: bool)

  /** The result of `fetch_all_klines`, with the fetched set it leaves behind. */
  datatype Batch = Batch(results: seq<FetchResult>, fetched: set<string>)

  function FirstKlineResult(info: Instrument, k: Kline): FetchResult
  {
    FetchResult(info, k.openTime, k.open, k.high, k.low, k.close)
  }

  function ResultSymbol(r: FetchResult): string
  {
    r.info.symbol
  }

  function ResultInfo(r: FetchResult): Instrument
  {
    r.info
  }

  /** The client returned a non-empty kline list for `symbol`. */
  predicate HasKlines(client: Client, symbol: string)
  {
    client(symbol).Klines? && |client(symbol).klines| > 0
  }

  /** find_coins/DataFetcher.py `fetch_kline`. */
  function FetchKline(fetched: set<string>, info: Instrument, client: Client): (r: FetchStep)
    ensures info.symbol in fetched ==> r == FetchStep(None, fetched, false)
    ensures info.symbol !in fetched ==> r.clientCalled
    ensures r.result.Some? <==> info.symbol !in fetched && HasKlines(client, info.symbol)
    ensures r.result.Some? ==>
              && r.result.value == FirstKlineResult(info, client(info.symbol).klines[0])
              && r.fetched == fetched + {info.symbol}
    ensures r.result.None? ==> r.fetched == fetched
  {
    if info.symbol in fetched then FetchStep(None, fetched, false)
    else
      match client(info.symbol)
      case FetchError => FetchStep(None, fetched, true)
      case Klines(ks) =>
        if |ks| > 0 then FetchStep(Some(FirstKlineResult(info, ks[0])), fetched + {info.symbol}, true)
        else FetchStep(None, fetched, true)
  }

  /** find_coins/DataFetcher.py `get_symbols`: the exchange's instruments, cut to `symbols[:symbol_limit]`. */
  function GetSymbols(exchange: seq<Instrument>, limit: Option<int>): (r: seq<Instrument>)
    ensures IsPrefix(r, exchange)
    ensures limit.None? ==> r == exchange
    ensures limit.Some? && 0 <= limit.value ==> |r| == if limit.value < |exchange| then limit.value else |exchange|
    ensures limit.Some? && limit.value < 0 ==> |r| == if |exchange| + limit.value < 0 then 0 else |exchange| + limit.value
  {
    match limit
    case None => exchange
    case Some(n) => PyPrefix(exchange, n)
  }

  /** `fetch_kline` on each instrument in order, each call seeing the symbols added by the earlier ones. */
  function FetchEach(fetched: set<string>, symbols: seq<Instrument>, client: Client): (r: (seq<Option<FetchResult>>, set<string>))
    ensures |r.0| == |symbols|
    ensures fetched <= r.1
    ensures forall i :: 0 <= i < |symbols| && r.0[i].Some? ==>
              && symbols[i].symbol !in fetched
              && symbols[i].symbol in r.1
              && HasKlines(client, symbols[i].symbol)
              && r.0[i].value == FirstKlineResult(symbols[i], client(symbols[i].symbol).klines[0])
    decreases |symbols|
  {
    if |symbols| == 0 then ([], fetched)
    else
      var step := FetchKline(fetched, symbols[0], client);
      var rest := FetchEach(step.fetched, symbols[1..], client);
      assert forall i :: 1 <= i < |symbols| ==> symbols[i] == symbols[1..][i - 1];
      ([step.result] + rest.0, rest.1)
  }

  /** find_coins/DataFetcher.py `fetch_all_klines`: the non-`None` per-symbol results, in input order. */
  function FetchAllKlines(fetched: set<string>, symbols: seq<Instrument>, client: Client): (b: Batch)
    ensures fetched <= b.fetched
    ensures |b.results| <= |symbols|
  {
    var each := FetchEach(fetched, symbols, client);
    Batch(Somes(each.0), each.1)
  }

  lemma SomesCons<T>(o: Option<T>, os: seq<Option<T>>)
    ensures Somes([o] + os) == (if o.Some? then [o.value] else []) + Somes(os)
  {
    assert ([o] + os)[0] == o && ([o] + os)[1..] == os;
  }

  /** One step of the batch: the first instrument's result, then the rest fetched against the grown set. */
  lemma FetchAllKlinesUnfold(fetched: set<string>, symbols: seq<Instrument>, client: Client)
    requires |symbols| > 0
    ensures var step := FetchKline(fetched, symbols[0], client);
      var rest := FetchAllKlines(step.fetched, symbols[1..], client);
      var b := FetchAllKlines(fetched, symbols, client);
      && b.results == (if step.result.Some? then [step.result.value] else []) + rest.results
      && b.fetched == rest.fetched
  {
    var step := FetchKline(fetched, symbols[0], client);
    SomesCons(step.result, FetchEach(step.fetched, symbols[1..], client).0);
  }

  /** Results come from the listed instruments, in their order. */
  lemma {:induction false} FetchAllKlinesInOrder(fetched: set<string>, symbols: seq<Instrument>, client: Client)
    ensures IsSubseq(Map(FetchAllKlines(fetched, symbols, client).results, ResultInfo), symbols)
    decreases |symbols|
  {
    if |symbols| > 0 {
      var step := FetchKline(fetched, symbols[0], client);
      var rest := FetchAllKlines(step.fetched, symbols[1..], client);
      var b := FetchAllKlines(fetched, symbols, client);
      FetchAllKlinesUnfold(fetched, symbols, client);
      FetchAllKlinesInOrder(step.fetched, symbols[1..], client);
      if step.result.Some? {
        MapAppend([step.result.value], rest.results, ResultInfo);
        var infos := Map(b.results, ResultInfo);
        assert infos[0] == symbols[0] && infos[1..] == Map(rest.results, ResultInfo);
      }
    }
  }

  /**
   Results are only for symbols not fetched before, each holding the first
   kline the client returned, and the fetched set grows by exactly their symbols.
   */
  lemma {:induction false} FetchAllKlinesRecords(fetched: set<string>, symbols: seq<Instrument>, client: Client)
    ensures var b := FetchAllKlines(fetched, symbols, client);
      && b.fetched == fetched + Elems(Map(b.results, ResultSymbol))
      && (forall i :: 0 <= i < |b.results| ==>
            && b.results[i].info.symbol !in fetched
            && HasKlines(client, b.results[i].info.symbol)
            && b.results[i] == FirstKlineResult(b.results[i].info, client(b.results[i].info.symbol).klines[0]))
    decreases |symbols|
  {
    if |symbols| > 0 {
      var step := FetchKline(fetched, symbols[0], client);
      var rest := FetchAllKlines(step.fetched, symbols[1..], client);
      var b := FetchAllKlines(fetched, symbols, client);
      FetchAllKlinesUnfold(fetched, symbols, client);
      FetchAllKlinesRecords(step.fetched, symbols[1..], client);
      if step.result.Some? {
        var x := step.result.value;
        MapAppend([x], rest.results, ResultSymbol);
        assert Elems(Map(b.results, ResultSymbol)) == {x.info.symbol} + Elems(Map(rest.results, ResultSymbol));
        forall i | 0 <= i < |b.results|
          ensures b.results[i].info.symbol !in fetched
        {
          if i > 0 {
            assert b.results[i] == rest.results[i - 1];
          }
        }
      }
    }
  }

  /** Each symbol gets at most one result in a batch, even when the instrument list repeats it. */
  lemma {:induction false} FetchAllKlinesDistinct(fetched: set<string>, symbols: seq<Instrument>, client: Client)
    ensures NoDup(Map(FetchAllKlines(fetched, symbols, client).results, ResultSymbol))
    decreases |symbols|
  {
    if |symbols| > 0 {
      var step := FetchKline(fetched, symbols[0], client);
      var rest := FetchAllKlines(step.fetched, symbols[1..], client);
      var b := FetchAllKlines(fetched, symbols, client);
      FetchAllKlinesUnfold(fetched, symbols, client);
      FetchAllKlinesDistinct(step.fetched, symbols[1..], client);
      if step.result.Some? {
        FetchAllKlinesRecords(step.fetched, symbols[1..], client);
        var x := step.result.value;
        MapAppend([x], rest.results, ResultSymbol);
        var restSyms := Map(rest.results, ResultSymbol);
        forall i | 0 <= i < |restSyms| ensures restSyms[i] != x.info.symbol {
          assert restSyms[i] == rest.results[i].info.symbol && restSyms[i] !in step.fetched;
        }
        NoDupCons(x.info.symbol, restSyms);
      }
    }
  }

  /**
   No instrument that should be fetched is lost: one whose symbol was not yet
   fetched and for which the client returns klines ends up in the fetched set.
   */
  lemma {:induction false} FetchAllKlinesComplete(fetched: set<string>, symbols: seq<Instrument>, client: Client, i: nat)
    requires i < |symbols|
    requires symbols[i].symbol !in fetched && HasKlines(client, symbols[i].symbol)
    ensures symbols[i].symbol in FetchAllKlines(fetched, symbols, client).fetched
    decreases |symbols|
  {
    var step := FetchKline(fetched, symbols[0], client);
    assert FetchAllKlines(fetched, symbols, client).fetched == FetchAllKlines(step.fetched, symbols[1..], client).fetched;
    if i > 0 {
      assert symbols[1..][i - 1] == symbols[i];
      if symbols[i].symbol !in step.fetched {
        FetchAllKlinesComplete(step.fetched, symbols[1..], client, i - 1);
      }
    }
  }
}

=== FILE: data_processor.dfy ===
/**
 find_coins/DataProcessor.py: turning fetch results into ledger records and
 merging them into the two cache files. A file's contents are an `Option`:
 `None` when the file is absent (for the ledger, also when it is zero bytes).
 A record's date is the kline open time; `isoformat` is order-preserving on
 the dates involved, so the string sort of the file is the integer sort here.
 */
module DataProcessor {
  import opened Wrappers
  import opened Seqs
  import opened StableSort
  import opened Market
  import opened DataFetcher

  /** One entry of `symbols.json`. */
  datatype Record = Record(symbol: string, date: int, open: real, high: real, low: real, close: real)

  function ResultDate(r: FetchResult): int
  {
    r.date
  }

  function RecordDate(r: Record): int
  {
    r.date
  }

  /** The ledger name of an instrument: `base + "/" + quote`. */
  function PairName(info: Instrument): string
  {
    info.base + "/" + info.quote
  }

  function ToRecord(r: FetchResult): Record
  {
    Record(PairName(r.info), r.date, r.open, r.high, r.low, r.close)
  }

  lemma {:induction false} MapRecordsGroups(s: seq<FetchResult>, d: int)
    ensures KeyGroup(Map(s, ToRecord), RecordDate, d) == Map(KeyGroup(s, ResultDate, d), ToRecord)
    decreases |s|
  {
    if |s| > 0 {
      MapRecordsGroups(s[1..], d);
      MapAppend([s[0]], s[1..], ToRecord);
      assert s == [s[0]] + s[1..];
      var m := Map(s, ToRecord);
      assert m[0] == ToRecord(s[0]) && m[1..] == Map(s[1..], ToRecord);
      if s[0].date == d {
        MapAppend([s[0]], KeyGroup(s[1..], ResultDate, d), ToRecord);
      }
    }
  }

  /**
   `sort_and_prepare_data`: one record per result, relabelled `base/quote`
   with prices copied, ordered by date; results with equal dates keep their
   relative order.
   */
  function SortAndPrepareData(results: seq<FetchResult>): (out: seq<Record>)
    ensures |out| == |results|
    ensures SortedBy(out, RecordDate)
    ensures multiset(out) == multiset(Map(results, ToRecord))
    ensures forall d :: KeyGroup(out, RecordDate, d) == Map(KeyGroup(results, ResultDate, d), ToRecord)
  {
    var sorted := SortBy(results, ResultDate);
    var out := Map(sorted, ToRecord);
    MapMultiset(sorted, results, ToRecord);
    forall d ensures KeyGroup(out, RecordDate, d) == Map(KeyGroup(results, ResultDate, d), ToRecord) {
      MapRecordsGroups(sorted, d);
      SortByStable(results, ResultDate, d);
    }
    out
  }

  /** Every result has its record among the prepared ones: symbol `base/quote`, date and prices unchanged. */
  lemma PreparedRecordsFaithful(results: seq<FetchResult>, i: nat)
    requires i < |results|
    ensures var x := results[i];
      Record(x.info.base + "/" + x.info.quote, x.date, x.open, x.high, x.low, x.close) in SortAndPrepareData(results)
  {
    var m := Map(results, ToRecord);
    assert m[i] == ToRecord(results[i]);
    assert m[i] in multiset(SortAndPrepareData(results));
  }

  /**
   `append_data_to_symbols`: with no prior ledger the new data is written as
   given; otherwise the file becomes the stable date sort of `existing + new`.
   */
  function AppendDataToSymbols(file: Option<seq<Record>>, newData: seq<Record>): (r: seq<Record>)
    ensures file.None? ==> r == newData
    ensures file.Some? ==>
              && |r| == |file.value| + |newData|
              && multiset(r) == multiset(file.value) + multiset(newData)
              && SortedBy(r, RecordDate)
              && forall d :: KeyGroup(r, RecordDate, d) == KeyGroup(file.value + newData, RecordDate, d)
  {
    match file
    case None => newData
    case Some(existing) =>
      var merged := SortBy(existing + newData, RecordDate);
      forall d ensures KeyGroup(merged, RecordDate, d) == KeyGroup(existing + newData, RecordDate, d) {
        SortByStable(existing + newData, RecordDate, d);
      }
      merged
  }

  /**
   The merge does not de-duplicate: merging the same batch a second time
   adds every record of it once more.
   */
  lemma MergeTwiceDuplicates(file: Option<seq<Record>>, newData: seq<Record>, x: Record)
    ensures var once := AppendDataToSymbols(file, newData);
      var twice := AppendDataToSymbols(Some(once), newData);
      && |twice| == |once| + |newData|
      && Count(twice, x) == Count(once, x) + Count(newData, x)
  {
  }

  /**
   `append_data_to_fetched_symbols`: the existing list's symbols (first
   occurrence of each) keep their place, and the batch's new symbols follow
   in the order first met, each once.
   */
  function AppendDataToFetchedSymbols(file: Option<seq<string>>, results: seq<FetchResult>): (r: seq<string>)
    ensures NoDup(r)
    ensures var newSymbols := Map(results, ResultSymbol);
      && r == FirstSeen(file.GetOr([]) + newSymbols)
      && Elems(r) == Elems(file.GetOr([])) + Elems(newSymbols)
    ensures file.Some? ==> IsPrefix(FirstSeen(file.value), r)
  {
    var newSymbols := Map(results, ResultSymbol);
    var newKeys := FirstSeen(newSymbols);
    match file
    case None =>
      assert file.GetOr([]) + newSymbols == newSymbols;
      newKeys
    case Some(existing) =>
      var r := AddKeys(FirstSeen(existing), newKeys);
      AddKeysOfAddKeys(FirstSeen(existing), [], newSymbols);
      AddKeysAppend([], existing, newSymbols);
      r
  }

  /** The symbols appended after the existing list come in the order they were first met in the batch. */
  lemma {:induction false} FetchedSymbolsFirstSeenOrder(file: Option<seq<string>>, results: seq<FetchResult>)
    ensures var r := AppendDataToFetchedSymbols(file, results);
      var old_ := FirstSeen(file.GetOr([]));
      var newSymbols := Map(results, ResultSymbol);
      && (forall i :: |old_| <= i < |r| ==> r[i] !in old_ && r[i] in newSymbols)
      && (forall i, j :: |old_| <= i < j < |r| ==> IndexOf(newSymbols, r[i]) < IndexOf(newSymbols, r[j]))
  {
    var old_ := FirstSeen(file.GetOr([]));
    var newSymbols := Map(results, ResultSymbol);
    AddKeysOfAddKeys(old_, [], newSymbols);
    AddKeysAppend([], file.GetOr([]), newSymbols);
    AddKeysFirstSeenOrder(old_, newSymbols);
  }
}

=== FILE: decorators.dfy ===
/**
 find_coins/decorators.py. A wrapped call is a function of its arguments;
 the `i`-th call made by `retry_decorator` is `attempt(i)`, which either
 returns a value or raises. Clock readings are parameters, and the logger's
 output is a list of events instead of formatted text.
 */
module Decorators {
  import opened Wrappers

  /** The outcome of one call of the wrapped function. */
  datatype Attempt<T> = Returned(value: T) | Raised

  /** What the wrappers hand to the logger. */
  datatype Event<A, R> =
    | Took(name: string, seconds: real)
    | CalledWith(name: string, args: A)
    | ReturnedValue(name: string, result: R)

  /** A wrapper's return value with the events it logged. */
  datatype Traced<A, R> = Traced(result: R, log: seq<Event<A, R>>)

  /** `range(max_retries)` has this many elements. */
  function RetryBound(maxRetries: int): (n: nat)
    ensures maxRetries <= 0 ==> n == 0
    ensures maxRetries > 0 ==> n == maxRetries
  {
    if maxRetries < 0 then 0 else maxRetries
  }

  /**
   `retry_decorator(max_retries)`: call until a call does not raise, at most
   `max_retries` times; the first value returned, or `None` once every
   attempt has raised.
   */
  method Retry<T>(maxRetries: int, attempt: nat -> Attempt<T>) returns (result: Option<T>, calls: nat)
    ensures calls <= RetryBound(maxRetries)
    ensures forall i :: 0 <= i < calls && (result.None? || i < calls - 1) ==> attempt(i).Raised?
    ensures result.Some? ==> calls >= 1 && attempt(calls - 1) == Returned(result.value)
    ensures result.None? ==> calls == RetryBound(maxRetries)
    ensures result.Some? <==> exists i :: 0 <= i < RetryBound(maxRetries) && attempt(i).Returned?
  {
    var bound := RetryBound(maxRetries);
    result := None;
    calls := 0;
    while calls < bound
      invariant calls <= bound
      invariant forall i :: 0 <= i < calls ==> attempt(i).Raised?
    {
      var a := attempt(calls);
      calls := calls + 1;
      if a.Returned? {
        result := Some(a.value);
        return;
      }
    }
  }

  /** `timer_decorator`: the call's result, with one event for the time between the two clock readings. */
  function TimerDecorator<A, R>(f: A -> R, name: string, args: A, startTime: real, endTime: real): (t: Traced<A, R>)
    ensures t.result == f(args)
    ensures t.log == [Took(name, endTime - startTime)]
  {
    Traced(f(args), [Took(name, endTime - startTime)])
  }

  /** `logging_decorator`: the call's result, logged after the arguments it was called with. */
  function LoggingDecorator<A, R>(f: A -> R, name: string, args: A): (t: Traced<A, R>)
    ensures t.result == f(args)
    ensures |t.log| == 2 && t.log[0] == CalledWith(name, args) && t.log[1] == ReturnedValue(name, t.result)
  {
    Traced(f(args), [CalledWith(name, args), ReturnedValue(name, f(args))])
  }

  /**
   The log identifies the call: two logged calls whose logs agree were made
   under the same name with the same arguments and returned the same result.
   */
  lemma LoggedCallsAreDistinguishable<A, R>(f: A -> R, g: A -> R, name1: string, name2: string, args1: A, args2: A)
    requires LoggingDecorator(f, name1, args1).log == LoggingDecorator(g, name2, args2).log
    ensures name1 == name2 && args1 == args2
    ensures f(args1) == g(args2)
  {
    var log1 := LoggingDecorator(f, name1, args1).log;
    assert log1[0] == CalledWith(name1, args1);
    assert log1[1] == ReturnedValue(name1, f(args1));
  }

  /** A call that never raises is made exactly once, when at least one attempt is allowed. */
  method RetryOfTotalCall<T>(maxRetries: int, f: nat -> T) returns (result: Option<T>, calls: nat)
    ensures maxRetries >= 1 ==> result == Some(f(0)) && calls == 1
    ensures maxRetries < 1 ==> result == None && calls == 0
  {
    var attempt := (i: nat) => Returned(f(i));
    result, calls := Retry(maxRetries, attempt);
    if maxRetries >= 1 {
      assert attempt(0).Returned?;
    }
  }
}

=== FILE: find_coins.dfy ===
/**
 find_coins/find_coins.py `FindCoins.fetch_klines_data`: list the universe,
 fetch the earliest kline of each not-yet-fetched symbol, and merge the
 results into the ledger and the fetched-symbols list. The model reads the
 fetcher's set of fetched symbols from the same file the run writes. The
 code takes the two paths from different configuration modules
 (find_coins/DataFetcher.py:4 and find_coins/find_coins.py:4), so they are
 the same file only when that configuration agrees.
 */
module FindCoins {
  import opened Wrappers
  import opened Seqs
  import opened StableSort
  import opened Market
  import opened DataFetcher
  import opened DataProcessor

  /** Contents of `symbols.json` (the ledger) and `fetched_symbols.json`. */
  datatype CacheFiles = CacheFiles(ledger: Option<seq<Record>>, fetched: Option<seq<string>>)

  /** `DataFetcher.__init__`: the fetched set read from the file, empty when the file is absent. */
  function LoadFetchedSymbols(file: Option<seq<string>>): (loaded: set<string>)
    ensures file.None? ==> loaded == {}
    ensures file.Some? ==> forall i :: 0 <= i < |file.value| ==> file.value[i] in loaded
    ensures forall x :: x in loaded ==> file.Some? && x in file.value
  {
    match file
    case None => {}
    case Some(symbols) => Elems(symbols)
  }

  /** The batch a run fetches: the truncated universe against the loaded fetched set. */
  function RunBatch(exchange: seq<Instrument>, limit: Option<int>, files: CacheFiles, client: Client): Batch
  {
    FetchAllKlines(LoadFetchedSymbols(files.fetched), GetSymbols(exchange, limit), client)
  }

  /** `fetch_klines_data`: both files as they are after the run. */
  function FetchKlinesData(exchange: seq<Instrument>, limit: Option<int>, files: CacheFiles, client: Client): (r: CacheFiles)
    ensures r.ledger.Some? && r.fetched.Some?
  {
    var batch := RunBatch(exchange, limit, files, client);
    var newData := SortAndPrepareData(batch.results);
    CacheFiles(Some(AppendDataToSymbols(files.ledger, newData)),
               Some(AppendDataToFetchedSymbols(files.fetched, batch.results)))
  }

  /** Instruments come from the first `symbol_limit` of the universe, in order, and none was fetched before. */
  lemma RunFetchesOnlyNewSymbolsOfTheTruncatedUniverse(exchange: seq<Instrument>, limit: Option<int>, files: CacheFiles, client: Client)
    ensures var results := RunBatch(exchange, limit, files, client).results;
      && IsSubseq(Map(results, ResultInfo), GetSymbols(exchange, limit))
      && forall i :: 0 <= i < |results| ==> results[i].info.symbol !in Elems(files.fetched.GetOr([]))
  {
    FetchAllKlinesInOrder(LoadFetchedSymbols(files.fetched), GetSymbols(exchange, limit), client);
    FetchAllKlinesRecords(LoadFetchedSymbols(files.fetched), GetSymbols(exchange, limit), client);
  }

  /**
   The fetched list grows by exactly the symbols of this run's results, in
   fetch order (not date order), after the previous list.
   */
  lemma {:induction false} RunAppendsFetchedSymbols(exchange: seq<Instrument>, limit: Option<int>, files: CacheFiles, client: Client)
    ensures var results := RunBatch(exchange, limit, files, client).results;
      FetchKlinesData(exchange, limit, files, client).fetched.value
        == FirstSeen(files.fetched.GetOr([])) + Map(results, ResultSymbol)
  {
    var loaded := LoadFetchedSymbols(files.fetched);
    var results := RunBatch(exchange, limit, files, client).results;
    var old_ := files.fetched.GetOr([]);
    var newSymbols := Map(results, ResultSymbol);
    FetchAllKlinesDistinct(loaded, GetSymbols(exchange, limit), client);
    FetchAllKlinesRecords(loaded, GetSymbols(exchange, limit), client);
    assert loaded == Elems(old_);
    assert Elems(FirstSeen(old_)) == Elems(old_);
    forall i | 0 <= i < |newSymbols| ensures newSymbols[i] !in FirstSeen(old_) {
      assert newSymbols[i] == results[i].info.symbol;
      assert newSymbols[i] !in Elems(old_);
    }
    AddKeysAppend([], old_, newSymbols);
    AddKeysFresh(FirstSeen(old_), newSymbols);
  }

  /**
   The ledger gains exactly one record per result, so exactly one per symbol
   appended to the fetched list, and stays ordered by date.
   */
  lemma RunAddsOneRecordPerResult(exchange: seq<Instrument>, limit: Option<int>, files: CacheFiles, client: Client)
    ensures var results := RunBatch(exchange, limit, files, client).results;
      var ledger := FetchKlinesData(exchange, limit, files, client).ledger.value;
      var old_ := files.ledger.GetOr([]);
      && |ledger| == |old_| + |results|
      && multiset(ledger) == multiset(old_) + multiset(Map(results, ToRecord))
      && SortedBy(ledger, RecordDate)
  {
    var results := RunBatch(exchange, limit, files, client).results;
    var newData := SortAndPrepareData(results);
    if files.ledger.None? {
      assert multiset(files.ledger.GetOr([])) == multiset{};
    }
  }

  /**
   A symbol, once recorded as fetched, is never fetched again: in the next
   run none of the results is for a symbol fetched by this one or recorded before.
   */
  lemma NeverRefetched(exchange: seq<Instrument>, limit: Option<int>, files: CacheFiles, client: Client,
                       exchange': seq<Instrument>, limit': Option<int>, client': Client)
    ensures var first := RunBatch(exchange, limit, files, client).results;
      var files' := FetchKlinesData(exchange, limit, files, client);
      var second := RunBatch(exchange', limit', files', client').results;
      forall i :: 0 <= i < |second| ==>
        && second[i].info.symbol !in Elems(files.fetched.GetOr([]))
        && second[i].info.symbol !in Map(first, ResultSymbol)
  {
    var files' := FetchKlinesData(exchange, limit, files, client);
    RunFetchesOnlyNewSymbolsOfTheTruncatedUniverse(exchange', limit', files', client');
  }
}

=== FILE: historical_replay.dfy ===
/**
 simulation/historical_trade_simulator.py `simulate_trade`: buy at the open
 of the first hourly kline, then sell at the first kline whose close makes
 the position worth at least the target; if none does, hand the position's
 value at the last close on to the real-time phase.
 */
module HistoricalReplay {
  import opened Wrappers
  import opened Seqs
  import opened Market

  /** What the position bought at the first open is worth at the close of `k`. */
  function PositionValue(quantity: real, k: Kline): real
  {
    quantity * k.close
  }

  /**
   The replay's outcome. An empty list is `DidNotExist`; a zero first open
   makes the quantity division raise.
   */
  function SimulateTrade(klines: seq<Kline>, amount: real, target: real): (r: Replay)
    ensures r == DidNotExist <==> |klines| == 0
    ensures r == Raised <==> |klines| > 0 && klines[0].open == 0.0
    ensures r.TargetReached? <==>
              |klines| > 0 && klines[0].open != 0.0 &&
              exists i :: 0 <= i < |klines| && PositionValue(amount / klines[0].open, klines[i]) >= target
    ensures r.TargetReached? ==>
              && r.at < |klines|
              && PositionValue(amount / klines[0].open, klines[r.at]) >= target
              && forall j :: 0 <= j < r.at ==> PositionValue(amount / klines[0].open, klines[j]) < target
    ensures r.CarryForward? ==>
              && |klines| > 0 && klines[0].open != 0.0
              && r.amount == (amount / klines[0].open) * klines[|klines| - 1].close
              && forall j :: 0 <= j < |klines| ==> PositionValue(amount / klines[0].open, klines[j]) < target
  {
    if |klines| == 0 then DidNotExist
    else if klines[0].open == 0.0 then Raised
    else
      var quantity := amount / klines[0].open;
      match FirstIndex(klines, k => PositionValue(quantity, k) >= target, 0)
      case Some(i) => TargetReached(i)
      case None => CarryForward(quantity * klines[|klines| - 1].close)
  }

  /** The amount handed to the real-time phase is always short of the target. */
  lemma CarryIsBelowTarget(klines: seq<Kline>, amount: real, target: real)
    requires SimulateTrade(klines, amount, target).CarryForward?
    ensures SimulateTrade(klines, amount, target).amount < target
  {
    var last := klines[|klines| - 1];
    assert PositionValue(amount / klines[0].open, last) < target;
  }

  /**
   1000 USD bought at an open of 40000 is 0.025 coins; with closes from 40500
   to 42500 the position peaks at 1062.5, so a target of 50000 is never met
   and the value at the last close is carried forward. These are the opens
   and closes of tests/test_historical_trade_simulator.py:26-32, with the
   amount and target of lines 14-15 of that file, whose test expects a sale
   instead; the dates and the highs and lows here are placeholders.
   */
  lemma QuarterPercentPositionCarriesForward()
    ensures var closes := [40500.0, 41000.0, 41500.0, 42000.0, 42500.0];
      var klines := seq(5, i requires 0 <= i < 5 => Kline(i * 3_600_000, if i == 0 then 40000.0 else closes[i - 1], closes[i], closes[i], closes[i]));
      SimulateTrade(klines, 1000.0, 50000.0) == CarryForward(1062.5)
  {
    var closes := [40500.0, 41000.0, 41500.0, 42000.0, 42500.0];
    var klines := seq(5, i requires 0 <= i < 5 => Kline(i * 3_600_000, if i == 0 then 40000.0 else closes[i - 1], closes[i], closes[i], closes[i]));
    assert 1000.0 / klines[0].open == 0.025;
    assert forall j :: 0 <= j < 5 ==> PositionValue(0.025, klines[j]) < 50000.0;
  }

  /** What `simulate_trade` returns: the carried amount, or `None` (no return value when it raises). */
  function ReturnValue(r: Replay): (v: Option<real>)
    ensures v.Some? <==> r.CarryForward?
    ensures r.CarryForward? ==> v == Some(r.amount)
  {
    match r
    case CarryForward(a) => Some(a)
    case _ => None
  }

  /** "Did not exist" and "target reached" both return `None`: the caller cannot tell them apart. */
  lemma MissingAndReachedLookAlike(klines: seq<Kline>, amount: real, target: real)
    requires |klines| > 0 && klines[0].open != 0.0
    requires PositionValue(amount / klines[0].open, klines[0]) >= target
    ensures ReturnValue(SimulateTrade(klines, amount, target)) == ReturnValue(SimulateTrade([], amount, target)) == None
  {
  }
}

=== FILE: legacy_coin_simulation.dfy ===
/**
 Real_Time_Test/simulation/coin_simulation.py `simulate_coin_trade`: the
 older orchestrator with the older simulators. It goes straight to real time
 when the start time falls on today's date, not only when it is exactly
 today's midnight.
 */
module LegacyCoinSimulation {
  import opened Wrappers
  import opened Market
  import CoinSimulation
  import LegacyHistoricalReplay
  import LegacyRealTimeMonitor

  const MillisPerDay: int := 86_400_000

  /**
   The local calendar date of an epoch-millisecond time, as a count of whole
   days since the local midnight `midnight`: day `d` is the window from
   `midnight + d` days up to, but not including, the next midnight.
   */
  function DayNumber(t: int, midnight: int): (d: int)
    ensures midnight + d * MillisPerDay <= t < midnight + (d + 1) * MillisPerDay
  {
    (t - midnight) / MillisPerDay
  }

  /**
   `start_time.date() == datetime.today().date()`, with today's local midnight
   in epoch milliseconds: the start's date is today's date.
   */
  function IsToday(startTime: int, todayMidnight: int): (r: bool)
    ensures r <==> DayNumber(startTime, todayMidnight) == DayNumber(todayMidnight, todayMidnight)
  {
    todayMidnight <= startTime < todayMidnight + MillisPerDay
  }

  /** A real-time run of the older monitor started with `amount`. */
  function RealTime(amount: real, target: real, feed: CoinSimulation.Feed): CoinSimulation.Call
  {
    CoinSimulation.RealTimeCall(amount, LegacyRealTimeMonitor.SimulateTrade(amount, target, feed.tickerPrice, feed.ticks))
  }

  function SimulateCoinTrade(startTime: int, amount: real, target: real, todayMidnight: int, feed: CoinSimulation.Feed)
    : (calls: seq<CoinSimulation.Call>)
    ensures !feed.clientOk ==> calls == []
    ensures feed.clientOk && IsToday(startTime, todayMidnight) ==> calls == [RealTime(amount, target, feed)]
    ensures feed.clientOk && !IsToday(startTime, todayMidnight) ==>
              var replay := LegacyHistoricalReplay.SimulateTrade(feed.hourly, amount, target);
              && 1 <= |calls| <= 2
              && calls[0] == CoinSimulation.HistoricalCall(amount, replay)
              && (|calls| == 2 <==> replay.CarryForward?)
              && (|calls| == 2 ==> calls[1] == RealTime(replay.amount, target, feed))
    ensures CoinSimulation.RealTimeRuns(calls) <= 1
  {
    if !feed.clientOk then []
    else if IsToday(startTime, todayMidnight) then [RealTime(amount, target, feed)]
    else
      var replay := LegacyHistoricalReplay.SimulateTrade(feed.hourly, amount, target);
      match replay
      case CarryForward(carry) =>
        var calls := [CoinSimulation.HistoricalCall(amount, replay), RealTime(carry, target, feed)];
        assert calls[1..][1..] == [];
        assert CoinSimulation.RealTimeRuns(calls[1..]) == 1;
        calls
      case _ => [CoinSimulation.HistoricalCall(amount, replay)]
  }

  /**
   A start time one hour after today's midnight: the current orchestrator
   replays history first, the older one goes straight to real time.
   */
  lemma TodayChecksDiffer(amount: real, target: real, todayMidnight: int, feed: CoinSimulation.Feed)
    requires feed.clientOk
    ensures var startTime := todayMidnight + 3_600_000;
      && CoinSimulation.SimulateCoinTrade(startTime, amount, target, todayMidnight, feed)[0].HistoricalCall?
      && SimulateCoinTrade(startTime, amount, target, todayMidnight, feed)[0].RealTimeCall?
  {
  }

  /** At today's midnight exactly, both go straight to real time with the full amount. */
  lemma TodayChecksAgreeAtMidnight(amount: real, target: real, todayMidnight: int, feed: CoinSimulation.Feed)
    requires feed.clientOk
    ensures var current := CoinSimulation.SimulateCoinTrade(todayMidnight, amount, target, todayMidnight, feed);
      var older := SimulateCoinTrade(todayMidnight, amount, target, todayMidnight, feed);
      && |current| == |older| == 1
      && current[0].RealTimeCall? && older[0].RealTimeCall?
      && current[0].amount == older[0].amount == amount
  {
  }
}

=== FILE: legacy_find_coins.dfy ===
/**
 Real_Time_Test/find_coins.py: the older single-class `DataFetcher`. Its
 `fetch_kline`, `get_symbols`, `fetch_all_klines`, `sort_and_prepare_data`
 and `append_data_to_symbols` are the same code as in find_coins/ and are the
 same members here. It differs in two places: the fetched-symbols merge is an
 unordered set union, and the fetched set is loaded from a fixed path while
 the run writes to the path named by the environment, so the file it reads
 and the file it writes are separate inputs.
 */
module LegacyFindCoins {
  import opened Wrappers
  import opened Seqs
  import opened Market
  import opened DataFetcher
  import opened DataProcessor
  import opened StableSort
  import FindCoins

  /**
   `append_data_to_fetched_symbols`: with an existing file, `list(set(old) | new)`
   in an order Python leaves open; with no file, the batch's symbols as they are.
   */
  ghost function AppendDataToFetchedSymbols(file: Option<seq<string>>, results: seq<FetchResult>): (r: seq<string>)
    ensures file.None? ==> r == Map(results, ResultSymbol)
    ensures file.Some? ==> NoDup(r) && Elems(r) == Elems(file.value) + Elems(Map(results, ResultSymbol))
  {
    match file
    case None => Map(results, ResultSymbol)
    case Some(existing) => SetToList(Elems(existing) + Elems(Map(results, ResultSymbol)))
  }

  /**
   `fetch_klines_data`: `loaded` is the fixed-path file the fetcher read its
   fetched set from; `files` are the ledger and fetched-symbols files written.
   */
  ghost function FetchKlinesData(exchange: seq<Instrument>, limit: Option<int>, loaded: Option<seq<string>>,
                                 files: FindCoins.CacheFiles, client: Client): (r: FindCoins.CacheFiles)
    ensures r.ledger.Some? && r.fetched.Some?
  {
    var batch := FetchAllKlines(FindCoins.LoadFetchedSymbols(loaded), GetSymbols(exchange, limit), client);
    var newData := SortAndPrepareData(batch.results);
    FindCoins.CacheFiles(Some(AppendDataToSymbols(files.ledger, newData)),
                         Some(AppendDataToFetchedSymbols(files.fetched, batch.results)))
  }

  /**
   What the older run leaves in the ledger, whichever file it read its
   fetched set from: one record per result of the batch fetched against that
   file, and an existing ledger stays ordered by date.
   */
  lemma LegacyRunLedger(exchange: seq<Instrument>, limit: Option<int>, loaded: Option<seq<string>>,
                        files: FindCoins.CacheFiles, client: Client)
    ensures var results := FetchAllKlines(FindCoins.LoadFetchedSymbols(loaded), GetSymbols(exchange, limit), client).results;
      var ledger := FetchKlinesData(exchange, limit, loaded, files, client).ledger.value;
      && multiset(ledger) == multiset(files.ledger.GetOr([])) + multiset(Map(results, ToRecord))
      && (files.ledger.Some? ==> SortedBy(ledger, RecordDate))
  {
    var results := FetchAllKlines(FindCoins.LoadFetchedSymbols(loaded), GetSymbols(exchange, limit), client).results;
    var newData := SortAndPrepareData(results);
    assert FetchKlinesData(exchange, limit, loaded, files, client).ledger.value == AppendDataToSymbols(files.ledger, newData);
    if files.ledger.None? {
      assert multiset(files.ledger.GetOr([])) == multiset{};
    }
  }

  /** What the older run leaves in the written fetched list: the old symbols and the results' symbols. */
  lemma LegacyRunFetched(exchange: seq<Instrument>, limit: Option<int>, loaded: Option<seq<string>>,
                         files: FindCoins.CacheFiles, client: Client)
    ensures var results := FetchAllKlines(FindCoins.LoadFetchedSymbols(loaded), GetSymbols(exchange, limit), client).results;
      var fetched := FetchKlinesData(exchange, limit, loaded, files, client).fetched.value;
      Elems(fetched) == Elems(files.fetched.GetOr([])) + Elems(Map(results, ResultSymbol))
  {
    var results := FetchAllKlines(FindCoins.LoadFetchedSymbols(loaded), GetSymbols(exchange, limit), client).results;
    assert FetchKlinesData(exchange, limit, loaded, files, client).fetched.value == AppendDataToFetchedSymbols(files.fetched, results);
  }

  /** The older run skips exactly the symbols of the file it read: no result is for one of them. */
  lemma LegacyRunSkipsLoaded(exchange: seq<Instrument>, limit: Option<int>, loaded: Option<seq<string>>, client: Client)
    ensures var results := FetchAllKlines(FindCoins.LoadFetchedSymbols(loaded), GetSymbols(exchange, limit), client).results;
      forall i :: 0 <= i < |results| ==> results[i].info.symbol !in Elems(loaded.GetOr([]))
  {
    var loadedSet := FindCoins.LoadFetchedSymbols(loaded);
    var results := FetchAllKlines(loadedSet, GetSymbols(exchange, limit), client).results;
    FetchAllKlinesRecords(loadedSet, GetSymbols(exchange, limit), client);
    forall i | 0 <= i < |results| ensures results[i].info.symbol !in Elems(loaded.GetOr([])) {
      assert results[i].info.symbol !in loadedSet;
    }
  }

  /**
   When it reads the file it writes, the older copy leaves the same ledger as
   find_coins/ and a fetched list with the same symbols, each once; only the
   order of that list may differ.
   */
  lemma {:induction false} AgreesWithFindCoinsUpToOrder(exchange: seq<Instrument>, limit: Option<int>,
                                                        files: FindCoins.CacheFiles, client: Client)
    ensures var legacy := FetchKlinesData(exchange, limit, files.fetched, files, client);
      var current := FindCoins.FetchKlinesData(exchange, limit, files, client);
      && legacy.ledger == current.ledger
      && Elems(legacy.fetched.value) == Elems(current.fetched.value)
      && NoDup(legacy.fetched.value)
  {
    var batch := FindCoins.RunBatch(exchange, limit, files, client);
    var newSymbols := Map(batch.results, ResultSymbol);
    if files.fetched.None? {
      FetchAllKlinesDistinct(FindCoins.LoadFetchedSymbols(files.fetched), GetSymbols(exchange, limit), client);
      assert files.fetched.GetOr([]) + newSymbols == newSymbols;
    }
  }

  /**
   Only the symbols of the file read at start-up are skipped: one that is in
   the written fetched list but not in the file read is fetched again whenever
   the client has klines for it.
   */
  lemma RefetchesSymbolsMissingFromLoadedFile(exchange: seq<Instrument>, limit: Option<int>, loaded: Option<seq<string>>,
                                              client: Client, i: nat)
    requires i < |GetSymbols(exchange, limit)|
    requires var s := GetSymbols(exchange, limit)[i].symbol;
      s !in Elems(loaded.GetOr([])) && HasKlines(client, s)
    ensures var s := GetSymbols(exchange, limit)[i].symbol;
      s in Map(FetchAllKlines(FindCoins.LoadFetchedSymbols(loaded), GetSymbols(exchange, limit), client).results, ResultSymbol)
  {
    var loadedSet := FindCoins.LoadFetchedSymbols(loaded);
    FetchAllKlinesComplete(loadedSet, GetSymbols(exchange, limit), client, i);
    FetchAllKlinesRecords(loadedSet, GetSymbols(exchange, limit), client);
  }
}

=== FILE: legacy_historical_replay.dfy ===
/**
 Real_Time_Test/simulation/historical_trade_simulator.py `simulate_trade`.
 The older replay tests the raw close price against the target instead of
 the position's value, and indexes the first kline without checking that
 there is one.
 */
module LegacyHistoricalReplay {
  import opened Wrappers
  import opened Seqs
  import opened Market
  import HistoricalReplay

  /** The raw close price reaches the target. */
  function PriceReaches(target: real, k: Kline): bool
  {
    k.close >= target
  }

  /** The replay's outcome: `klines[0]` on an empty list and a zero first open both raise. */
  function SimulateTrade(klines: seq<Kline>, amount: real, target: real): (r: Replay)
    ensures r != DidNotExist
    ensures r == Raised <==> |klines| == 0 || klines[0].open == 0.0
    ensures r.TargetReached? <==>
              |klines| > 0 && klines[0].open != 0.0 && exists i :: 0 <= i < |klines| && klines[i].close >= target
    ensures r.TargetReached? ==>
              && r.at < |klines| && klines[r.at].close >= target
              && forall j :: 0 <= j < r.at ==> klines[j].close < target
    ensures r.CarryForward? ==>
              && |klines| > 0 && klines[0].open != 0.0
              && r.amount == (amount / klines[0].open) * klines[|klines| - 1].close
              && forall j :: 0 <= j < |klines| ==> klines[j].close < target
  {
    if |klines| == 0 || klines[0].open == 0.0 then Raised
    else
      var quantity := amount / klines[0].open;
      match FirstIndex(klines, k => PriceReaches(target, k), 0)
      case Some(i) => TargetReached(i)
      case None => CarryForward(quantity * klines[|klines| - 1].close)
  }

  /**
   When the amount buys exactly one coin, the position's value is the price,
   and the two replays reach the same outcome.
   */
  lemma AgreesWhenOneCoinIsBought(klines: seq<Kline>, amount: real, target: real)
    requires |klines| > 0 && klines[0].open != 0.0 && amount == klines[0].open
    ensures SimulateTrade(klines, amount, target) == HistoricalReplay.SimulateTrade(klines, amount, target)
  {
    var quantity := amount / klines[0].open;
    assert quantity == 1.0;
    FirstIndexAgrees(klines, k => PriceReaches(target, k),
                     k => HistoricalReplay.PositionValue(quantity, k) >= target, 0);
  }

  /**
   With 1000 USD at a price of 1 closing at 2 and a target of 100, the
   position is worth 2000 and the current replay sells on the first kline,
   while the older one sees a price of 2 below 100 and carries 2000 forward:
   a carried amount above the target.
   */
  lemma ThresholdsDiffer()
    ensures var klines := [Kline(0, 1.0, 2.0, 1.0, 2.0)];
      && HistoricalReplay.SimulateTrade(klines, 1000.0, 100.0) == TargetReached(0)
      && SimulateTrade(klines, 1000.0, 100.0) == CarryForward(2000.0)
  {
    var klines := [Kline(0, 1.0, 2.0, 1.0, 2.0)];
    assert HistoricalReplay.PositionValue(1000.0 / 1.0, klines[0]) >= 100.0;
  }

  /** An empty kline list: the current replay reports "did not exist", the older one raises. */
  lemma EmptyHistoryDiffers(amount: real, target: real)
    ensures HistoricalReplay.SimulateTrade([], amount, target) == DidNotExist
    ensures SimulateTrade([], amount, target) == Raised
  {
  }
}

=== FILE: legacy_real_time_monitor.dfy ===
/**
 Real_Time_Test/simulation/real_time_trade_simulator.py: the older monitor
 fixes the quantity the same way but stops the socket once the raw price,
 not the position's value, reaches the target.
 */
module LegacyRealTimeMonitor {
  import opened Wrappers
  import opened Seqs
  import opened Market
  import RealTimeMonitor

  /** `process_message`: the raw price is tested; the sale is still logged with the fixed quantity. */
  function ProcessMessage(quantity: real, target: real, tick: Tick): (r: Reaction)
    ensures tick.ErrorTick? ==> !r.closeStream && r.log == [StreamError(tick.message)]
    ensures tick.Trade? ==> |r.log| >= 1 && r.log[0] == CurrentPrice(tick.price)
    ensures tick.Trade? ==> (r.closeStream <==> tick.price >= target)
    ensures r.closeStream ==> r.log[|r.log| - 1] == Selling(quantity, tick.price)
    ensures !r.closeStream ==> |r.log| == 1
  {
    match tick
    case ErrorTick(m) => Reaction(false, [StreamError(m)])
    case Trade(p) =>
      if p >= target then Reaction(true, [CurrentPrice(p), Selling(quantity, p)])
      else Reaction(false, [CurrentPrice(p)])
  }

  /** `simulate_trade` over a finite stream: stopped by the first trade priced at or above the target. */
  function SimulateTrade(amount: real, target: real, tickerPrice: real, ticks: seq<Tick>): (r: Monitoring)
    ensures r == MonitorRaised <==> tickerPrice == 0.0
    ensures r.Closed? <==>
              tickerPrice != 0.0 && exists i :: 0 <= i < |ticks| && ticks[i].Trade? && ticks[i].price >= target
    ensures r.Closed? ==>
              && r.quantity == amount / tickerPrice && r.at < |ticks|
              && ticks[r.at].Trade? && ticks[r.at].price >= target
              && forall j :: 0 <= j < r.at ==> ticks[j].ErrorTick? || ticks[j].price < target
    ensures r.Listening? ==> r.quantity == amount / tickerPrice
  {
    if tickerPrice == 0.0 then MonitorRaised
    else
      var quantity := amount / tickerPrice;
      match FirstIndex(ticks, t => RealTimeMonitor.Closes(tick => ProcessMessage(quantity, target, tick), t), 0)
      case Some(i) => Closed(quantity, i)
      case None => Listening(quantity)
  }

  /** When the amount buys exactly one coin, both monitors react identically to every message. */
  lemma AgreesWhenOneCoinIsBought(amount: real, target: real, tickerPrice: real, ticks: seq<Tick>)
    requires tickerPrice != 0.0 && amount == tickerPrice
    ensures SimulateTrade(amount, target, tickerPrice, ticks) == RealTimeMonitor.SimulateTrade(amount, target, tickerPrice, ticks)
  {
    var quantity := amount / tickerPrice;
    assert quantity == 1.0;
    FirstIndexAgrees(ticks, t => RealTimeMonitor.Closes(tick => ProcessMessage(quantity, target, tick), t),
                     t => RealTimeMonitor.Closes(tick => RealTimeMonitor.ProcessMessage(quantity, target, tick), t), 0);
  }

  /**
   Carrying 50 USD into a coin at 0.5 buys 100 coins; a trade at 2 makes them
   worth 200, which closes the current monitor at a target of 150, while the
   older one keeps listening because 2 is below 150.
   */
  lemma ThresholdsDiffer()
    ensures RealTimeMonitor.SimulateTrade(50.0, 150.0, 0.5, [Trade(2.0)]) == Closed(100.0, 0)
    ensures SimulateTrade(50.0, 150.0, 0.5, [Trade(2.0)]) == Listening(100.0)
  {
    assert RealTimeMonitor.ProcessMessage(50.0 / 0.5, 150.0, Trade(2.0)).closeStream;
  }
}

=== FILE: main_search.dfy ===
/**
 main_search.py: keep the exchange's USDT pairs in `trading_pairs.json`,
 screen them, and accumulate the pairs that pass in `valid_pairs.json`.
 Both merges go through Python sets, so the lists they write hold each pair
 once, in an order the model leaves open. The exchange's symbol list is an
 input, and so is each pair's ticker.
 */
module MainSearch {
  import opened Wrappers
  import opened Seqs
  import opened BinanceWork
  import opened Criteria

  /** `load_valid_data`: the list written to the valid-pairs file. */
  ghost function LoadValidData(file: Option<seq<string>>, data: seq<string>): (written: seq<string>)
    ensures file.None? ==> written == data
    ensures file.Some? ==> NoDup(written) && Elems(written) == Elems(file.value) + Elems(data)
  {
    match file
    case None => data
    case Some(previous) => SetToList(Elems(previous) + Elems(data))
  }

  /** `update_data`: the list returned, which is also the list written back. */
  ghost function UpdateData(file: Option<seq<string>>, fetched: seq<string>): (data: seq<string>)
    ensures file.None? ==> data == fetched
    ensures file.Some? ==> NoDup(data) && Elems(data) == Elems(file.value) + Elems(fetched)
  {
    match file
    case None => fetched
    case Some(previous) =>
      var newData := SetToList(Elems(fetched) - Elems(previous));
      SetToList(Elems(previous) + Elems(newData))
  }

  /**
   `get_valid_pairs`: the pairs that pass the screen, in their order. A screen
   that raises ends the whole comprehension, so the result is `None` exactly
   when one of the pairs makes it raise.
   */
  function GetValidPairs(pairs: seq<string>, stats: string -> Option<TickerStats>): (r: Option<seq<string>>)
    ensures r.None? <==> exists i :: 0 <= i < |pairs| && ScreenPair(pairs[i], stats(pairs[i])).None?
    ensures r.Some? ==> IsSubseq(r.value, pairs) && forall i :: 0 <= i < |r.value| ==> r.value[i] in pairs
    ensures r.Some? ==> forall i :: 0 <= i < |r.value| ==> ScreenPair(r.value[i], stats(r.value[i])) == Some(true)
    ensures r.Some? ==> forall i :: 0 <= i < |pairs| && ScreenPair(pairs[i], stats(pairs[i])) == Some(true) ==> pairs[i] in r.value
    ensures r.Some? ==> forall i :: 0 <= i < |pairs| ==>
              multiset(r.value)[pairs[i]] == if ScreenPair(pairs[i], stats(pairs[i])) == Some(true) then multiset(pairs)[pairs[i]] else 0
  {
    var screen := p => ScreenPair(p, stats(p));
    FilterCounts(pairs, Accepts(screen));
    TryFilter(pairs, screen)
  }

  /** The two files as `get_all_trading_pairs` leaves them. */
  datatype SearchFiles = SearchFiles(tradingPairs: Option<seq<string>>, validPairs: Option<seq<string>>)

  /** The files after a run, and whether a screen raised before the valid-pairs file was written. */
  datatype SearchRun = SearchRun(files: SearchFiles, raised: bool)

  /**
   `get_all_trading_pairs`. The trading-pairs file is written by
   `update_data` before any pair is screened, so it is updated even when a
   screen raises; the valid-pairs file is then left as it was.
   */
  ghost function GetAllTradingPairs(files: SearchFiles, fetched: seq<string>, stats: string -> Option<TickerStats>)
    : (r: SearchRun)
    ensures r.files.tradingPairs == Some(UpdateData(files.tradingPairs, fetched))
    ensures r.raised <==>
              exists i :: 0 <= i < |r.files.tradingPairs.value| &&
                ScreenPair(r.files.tradingPairs.value[i], stats(r.files.tradingPairs.value[i])).None?
    ensures r.raised ==> r.files.validPairs == files.validPairs
    ensures !r.raised ==> r.files.validPairs.Some?
  {
    var trading := UpdateData(files.tradingPairs, fetched);
    match GetValidPairs(trading, stats)
    case None => SearchRun(SearchFiles(Some(trading), files.validPairs), true)
    case Some(valid) => SearchRun(SearchFiles(Some(trading), Some(LoadValidData(files.validPairs, valid))), false)
  }

  /**
   The valid-pairs file only ever gains pairs that passed the screen: every
   pair in it was there before, or is a known or fetched pair that passes.
   */
  lemma ValidPairsFileOnlyGainsScreenedPairs(files: SearchFiles, fetched: seq<string>, stats: string -> Option<TickerStats>, p: string)
    requires !GetAllTradingPairs(files, fetched, stats).raised
    requires p in GetAllTradingPairs(files, fetched, stats).files.validPairs.value
    ensures || p in Elems(files.validPairs.GetOr([]))
            || (&& ScreenPair(p, stats(p)) == Some(true)
                && p in Elems(files.tradingPairs.GetOr([])) + Elems(fetched))
  {
    var trading := UpdateData(files.tradingPairs, fetched);
    var valid := GetValidPairs(trading, stats).value;
    var written := LoadValidData(files.validPairs, valid);
    assert p in Elems(written);
    if p in valid {
      var i :| 0 <= i < |valid| && valid[i] == p;
      assert p in Elems(trading);
    }
  }

  /**
   The converse: the valid-pairs file keeps every pair it held before and
   gains every known or fetched pair that passes the screen.
   */
  lemma ValidPairsFileKeepsOldAndScreenedPairs(files: SearchFiles, fetched: seq<string>, stats: string -> Option<TickerStats>, p: string)
    requires !GetAllTradingPairs(files, fetched, stats).raised
    requires || p in Elems(files.validPairs.GetOr([]))
             || (&& ScreenPair(p, stats(p)) == Some(true)
                 && p in Elems(files.tradingPairs.GetOr([])) + Elems(fetched))
    ensures p in GetAllTradingPairs(files, fetched, stats).files.validPairs.value
  {
    var trading := UpdateData(files.tradingPairs, fetched);
    var valid := GetValidPairs(trading, stats).value;
    var written := LoadValidData(files.validPairs, valid);
    if p !in Elems(files.validPairs.GetOr([])) {
      assert p in Elems(trading);
      var i :| 0 <= i < |trading| && trading[i] == p;
      assert p in valid;
      if files.validPairs.Some? {
        assert p in Elems(valid);
      }
    }
    assert p in Elems(written);
  }
}

=== FILE: market.dfy ===
/**
 Vocabulary shared by the ingestion layer and the two-phase trade simulation:
 exchange instruments, klines, trade-stream messages, and the outcomes the
 historical replay and the real-time monitor can reach.
 */
module Market {

  /** An exchange instrument as `(symbol, baseAsset, quoteAsset)`. */
  datatype Instrument = Instrument(symbol: string, base: string, quote: string)

  /**
   A kline: its open time in epoch milliseconds and its open, high, low and
   close prices. The simulators parse the exchange's price strings with
   `float`; the ingester copies them into the ledger unparsed, and the model
   only ever compares or copies them there.
   */
  datatype Kline = Kline(openTime: int, open: real, high: real, low: real, close: real)

  /** A trade-stream message: a trade at price `msg['p']`, or an error event carrying `msg['m']`. */
  datatype Tick = Trade(price: real) | ErrorTick(message: string)

  /**
   How a historical replay ends. `Raised` is an exception escaping
   `simulate_trade` (a zero opening price, or indexing an empty kline list);
   `TargetReached(at)` names the first kline whose threshold test passed.
   */
  datatype Replay = Raised | DidNotExist | TargetReached(at: nat) | CarryForward(amount: real)

  /** A line a real-time monitor logs while handling a message. */
  datatype LogLine = CurrentPrice(price: real) | Selling(quantity: real, price: real) | StreamError(message: string)

  /** What `process_message` does with one message: whether it tears the stream down, and what it logs. */
  datatype Reaction = Reaction(closeStream: bool, log: seq<LogLine>)

  /**
   How a real-time monitor ends over a finite run of messages: the ticker
   price made the quantity computation raise, the stream was closed on
   message `at`, or every message was handled and the stream is still open.
   */
  datatype Monitoring = MonitorRaised | Closed(quantity: real, at: nat) | Listening(quantity: real)
}

=== FILE: real_time_monitor.dfy ===
/**
 simulation/real_time_trade_simulator.py: fix the quantity once from the
 ticker price, then feed the trade stream's messages to `process_message`
 until one of them closes the stream. The stream is a finite sequence of
 messages; what happens after it is closed is not modelled.
 */
module RealTimeMonitor {
  import opened Wrappers
  import opened Seqs
  import opened Market

  /**
   `process_message` with the quantity fixed by `simulate_trade`: a trade is
   logged at its price and closes the stream once the position it values
   reaches the target; an error message is logged and changes nothing.
   */
  function ProcessMessage(quantity: real, target: real, tick: Tick): (r: Reaction)
    ensures tick.ErrorTick? ==> !r.closeStream && r.log == [StreamError(tick.message)]
    ensures tick.Trade? ==> |r.log| >= 1 && r.log[0] == CurrentPrice(tick.price)
    ensures tick.Trade? ==> (r.closeStream <==> quantity * tick.price >= target)
    ensures r.closeStream ==> r.log[|r.log| - 1] == Selling(quantity, tick.price)
    ensures !r.closeStream ==> |r.log| == 1
  {
    match tick
    case ErrorTick(m) => Reaction(false, [StreamError(m)])
    case Trade(p) =>
      if quantity * p >= target then Reaction(true, [CurrentPrice(p), Selling(quantity, p)])
      else Reaction(false, [CurrentPrice(p)])
  }

  /** Whether `react` closes the stream on `tick`. */
  function Closes(react: Tick -> Reaction, tick: Tick): bool
  {
    react(tick).closeStream
  }

  /** The messages the receive loop hands over before the stream closes: up to and including the closing one. */
  function Delivered(react: Tick -> Reaction, ticks: seq<Tick>): (d: seq<Tick>)
    ensures IsPrefix(d, ticks)
    ensures forall j :: 0 <= j < |d| - 1 ==> !Closes(react, d[j])
    ensures |d| < |ticks| ==> |d| > 0 && Closes(react, d[|d| - 1])
  {
    match FirstIndex(ticks, t => Closes(react, t), 0)
    case Some(i) => ticks[..i + 1]
    case None => ticks
  }

  /** The log written while the messages are handled, in order. */
  function Transcript(react: Tick -> Reaction, ticks: seq<Tick>): seq<LogLine>
  {
    if |ticks| == 0 then [] else react(ticks[0]).log + Transcript(react, ticks[1..])
  }

  /**
   `simulate_trade` over a finite stream: a zero ticker price makes the
   quantity division raise; otherwise the stream is closed by the first trade
   at which the position reaches the target, or stays open.
   */
  function SimulateTrade(amount: real, target: real, tickerPrice: real, ticks: seq<Tick>): (r: Monitoring)
    ensures r == MonitorRaised <==> tickerPrice == 0.0
    ensures r.Closed? <==>
              tickerPrice != 0.0 &&
              exists i :: 0 <= i < |ticks| && ticks[i].Trade? && (amount / tickerPrice) * ticks[i].price >= target
    ensures r.Closed? ==>
              && r.quantity == amount / tickerPrice && r.at < |ticks|
              && ticks[r.at].Trade? && r.quantity * ticks[r.at].price >= target
              && forall j :: 0 <= j < r.at ==> ticks[j].ErrorTick? || r.quantity * ticks[j].price < target
    ensures r.Listening? ==> r.quantity == amount / tickerPrice
  {
    if tickerPrice == 0.0 then MonitorRaised
    else
      var quantity := amount / tickerPrice;
      match FirstIndex(ticks, t => Closes(tick => ProcessMessage(quantity, target, tick), t), 0)
      case Some(i) => Closed(quantity, i)
      case None => Listening(quantity)
  }

  /**
   Handling messages never changes the quantity: every sale logged while the
   stream is fed is for the quantity fixed from the ticker price.
   */
  lemma {:induction false} SalesUseFixedQuantity(quantity: real, target: real, ticks: seq<Tick>, n: nat)
    requires n < |Transcript(tick => ProcessMessage(quantity, target, tick), ticks)|
    requires Transcript(tick => ProcessMessage(quantity, target, tick), ticks)[n].Selling?
    ensures Transcript(tick => ProcessMessage(quantity, target, tick), ticks)[n].quantity == quantity
    decreases |ticks|
  {
    var react := tick => ProcessMessage(quantity, target, tick);
    var head := react(ticks[0]).log;
    if n >= |head| {
      assert Transcript(react, ticks)[n] == Transcript(react, ticks[1..])[n - |head|];
      SalesUseFixedQuantity(quantity, target, ticks[1..], n - |head|);
    }
  }

  /** A message below the target only logs the current price. */
  lemma BelowTargetOnlyLogsPrice(quantity: real, target: real, price: real)
    requires quantity * price < target
    ensures ProcessMessage(quantity, target, Trade(price)) == Reaction(false, [CurrentPrice(price)])
  {
  }

  /**
   The stream is closed exactly at the message `SimulateTrade` reports, and
   the last line logged up to it is the sale.
   */
  lemma {:induction false} ClosingMessageEndsTranscript(amount: real, target: real, tickerPrice: real, ticks: seq<Tick>)
    requires SimulateTrade(amount, target, tickerPrice, ticks).Closed?
    ensures var r := SimulateTrade(amount, target, tickerPrice, ticks);
      var react := tick => ProcessMessage(r.quantity, target, tick);
      var d := Delivered(react, ticks);
      && |d| == r.at + 1
      && Transcript(react, d)[|Transcript(react, d)| - 1] == Selling(r.quantity, ticks[r.at].price)
  {
    var r := SimulateTrade(amount, target, tickerPrice, ticks);
    var react := tick => ProcessMessage(r.quantity, target, tick);
    var d := Delivered(react, ticks);
    FirstIndexAgrees(ticks, t => Closes(react, t),
                     t => Closes(tick => ProcessMessage(amount / tickerPrice, target, tick), t), 0);
    TranscriptAppend(react, d[..r.at], [d[r.at]]);
    assert d == d[..r.at] + [d[r.at]];
    assert Transcript(react, [d[r.at]]) == react(d[r.at]).log;
  }

  lemma {:induction false} TranscriptAppend(react: Tick -> Reaction, a: seq<Tick>, b: seq<Tick>)
    ensures Transcript(react, a + b) == Transcript(react, a) + Transcript(react, b)
    decreases |a|
  {
    if |a| > 0 {
      assert (a + b)[1..] == a[1..] + b;
      TranscriptAppend(react, a[1..], b);
    } else {
      assert a + b == b;
    }
  }
}

=== FILE: seqs.dfy ===
/**
 Sequence vocabulary shared by the ingestion, screening and simulation models:
 elements, duplicates, subsequences, Python list comprehensions and slices,
 and the insertion-ordered key set of Python's `OrderedDict`.
 */
module Seqs {
  import opened Wrappers

  function Elems<T>(s: seq<T>): set<T>
  {
    set x | x in s
  }

  ghost predicate NoDup<T>(s: seq<T>)
  {
    forall i, j :: 0 <= i < j < |s| ==> s[i] != s[j]
  }

  /** `a` is obtained from `b` by deleting elements, keeping the order of the rest. */
  ghost predicate IsSubseq<T>(a: seq<T>, b: seq<T>)
    decreases |b|
  {
    || |a| == 0
    || (&& |b| > 0
        && ((a[0] == b[0] && IsSubseq(a[1..], b[1..])) || IsSubseq(a, b[1..])))
  }

  /** Keeping or dropping a new head extends a subsequence relation. */
  lemma IsSubseqCons<T>(x: T, a: seq<T>, b: seq<T>, keep: bool)
    requires IsSubseq(a, b)
    ensures IsSubseq((if keep then [x] else []) + a, [x] + b)
  {
    assert ([x] + b)[1..] == b;
    if keep {
      assert ([x] + a)[0] == x && ([x] + a)[1..] == a;
    } else {
      assert [] + a == a;
    }
  }

  ghost predicate IsPrefix<T>(a: seq<T>, b: seq<T>)
  {
    |a| <= |b| && b[..|a|] == a
  }

  ghost predicate IsSuffix<T>(a: seq<T>, b: seq<T>)
  {
    |a| <= |b| && b[|b| - |a|..] == a
  }

  /** Number of occurrences of `x` in `s`. */
  function Count<T(==)>(s: seq<T>, x: T): nat
  {
    multiset(s)[x]
  }

  /** Position of the first occurrence of `x` in `s`. */
  ghost function IndexOf<T>(s: seq<T>, x: T): (i: nat)
    requires x in s
    ensures i < |s| && s[i] == x
    ensures forall j :: 0 <= j < i ==> s[j] != x
  {
    if s[0] == x then 0 else 1 + IndexOf(s[1..], x)
  }

  /** `[f(x) for x in s]` */
  function Map<A, B>(s: seq<A>, f: A -> B): (r: seq<B>)
    ensures |r| == |s|
    ensures forall i :: 0 <= i < |s| ==> r[i] == f(s[i])
  {
    if |s| == 0 then [] else [f(s[0])] + Map(s[1..], f)
  }

  lemma {:induction false} MapAppend<A, B>(a: seq<A>, b: seq<A>, f: A -> B)
    ensures Map(a + b, f) == Map(a, f) + Map(b, f)
  {
    var l, r := Map(a + b, f), Map(a, f) + Map(b, f);
    assert |l| == |r|;
    forall i | 0 <= i < |l| ensures l[i] == r[i] {
      if i < |a| {
        assert (a + b)[i] == a[i];
      } else {
        assert (a + b)[i] == b[i - |a|];
      }
    }
  }

  lemma NoDupCons<T>(x: T, s: seq<T>)
    requires NoDup(s)
    requires forall i :: 0 <= i < |s| ==> s[i] != x
    ensures NoDup([x] + s)
  {
    forall i, j | 0 <= i < j < |[x] + s| ensures ([x] + s)[i] != ([x] + s)[j] {
      assert ([x] + s)[j] == s[j - 1];
      if i > 0 {
        assert ([x] + s)[i] == s[i - 1];
      }
    }
  }

  /** Removing the element at `j` takes exactly one copy of it out of the multiset. */
  lemma MultisetSplice<T>(s: seq<T>, j: nat)
    requires j < |s|
    ensures multiset(s) == multiset(s[..j] + s[j + 1..]) + multiset{s[j]}
  {
    assert s == s[..j] + [s[j]] + s[j + 1..];
  }

  lemma MapRemove<A, B>(s: seq<A>, j: nat, f: A -> B)
    requires j < |s|
    ensures Map(s[..j] + s[j + 1..], f) == Map(s, f)[..j] + Map(s, f)[j + 1..]
  {
    var rest := s[..j] + s[j + 1..];
    var m := Map(s, f);
    forall i | 0 <= i < |rest| ensures Map(rest, f)[i] == (m[..j] + m[j + 1..])[i] {
      if i < j {
        assert rest[i] == s[i];
      } else {
        assert rest[i] == s[i + 1];
      }
    }
  }

  lemma MapSplice<A, B>(s: seq<A>, j: nat, f: A -> B)
    requires j < |s|
    ensures multiset(Map(s, f)) == multiset(Map(s[..j] + s[j + 1..], f)) + multiset{f(s[j])}
  {
    MultisetSplice(Map(s, f), j);
    MapRemove(s, j, f);
  }

  lemma MultisetCancel<T>(m1: multiset<T>, m2: multiset<T>, x: T)
    requires m1 + multiset{x} == m2 + multiset{x}
    ensures m1 == m2
  {
    assert m1 == (m1 + multiset{x}) - multiset{x};
    assert m2 == (m2 + multiset{x}) - multiset{x};
  }

  /** Taking one copy of the same element out of two permutations leaves permutations. */
  lemma RemoveFromBoth<T>(a: seq<T>, b: seq<T>, j: nat)
    requires multiset(a) == multiset(b)
    requires |a| > 0 && j < |b| && b[j] == a[0]
    ensures multiset(a[1..]) == multiset(b[..j] + b[j + 1..])
  {
    assert a == [a[0]] + a[1..];
    assert multiset(a) == multiset(a[1..]) + multiset{a[0]};
    MultisetSplice(b, j);
    MultisetCancel(multiset(a[1..]), multiset(b[..j] + b[j + 1..]), a[0]);
  }

  /** Mapping preserves being a permutation. */
  lemma {:induction false} MapMultiset<A, B>(a: seq<A>, b: seq<A>, f: A -> B)
    requires multiset(a) == multiset(b)
    ensures multiset(Map(a, f)) == multiset(Map(b, f))
    decreases |a|
  {
    if |a| == 0 {
      assert |multiset(b)| == 0;
    } else {
      assert a[0] in multiset(b);
      var j := IndexOf(b, a[0]);
      RemoveFromBoth(a, b, j);
      MapMultiset(a[1..], b[..j] + b[j + 1..], f);
      assert Map(a, f) == [f(a[0])] + Map(a[1..], f);
      MapSplice(b, j, f);
    }
  }

  /** `[x for x in s if p(x)]` */
  function Filter<T>(s: seq<T>, p: T -> bool): (r: seq<T>)
    ensures forall i :: 0 <= i < |r| ==> r[i] in s && p(r[i])
    ensures forall i :: 0 <= i < |s| && p(s[i]) ==> s[i] in r
    ensures IsSubseq(r, s)
  {
    if |s| == 0 then []
    else if p(s[0]) then [s[0]] + Filter(s[1..], p)
    else Filter(s[1..], p)
  }

  /**
   The multiplicity step of a filter: if `rest` draws from the tail of `s` and
   counts each tail element as the filter should, then adding or dropping the
   head gives the right count for every element of `s`.
   */
  lemma CountsStep<T>(s: seq<T>, keep: bool, rest: seq<T>, want: T -> bool)
    requires |s| > 0 && keep == want(s[0])
    requires forall i :: 0 <= i < |rest| ==> rest[i] in s[1..]
    requires forall i :: 0 <= i < |s[1..]| ==> multiset(rest)[s[1..][i]] == if want(s[1..][i]) then multiset(s[1..])[s[1..][i]] else 0
    ensures forall i :: 0 <= i < |s| ==>
              multiset((if keep then [s[0]] else []) + rest)[s[i]] == if want(s[i]) then multiset(s)[s[i]] else 0
  {
    var tail := s[1..];
    assert s == [s[0]] + tail;
    var r := (if keep then [s[0]] else []) + rest;
    forall i | 0 <= i < |s| ensures multiset(r)[s[i]] == if want(s[i]) then multiset(s)[s[i]] else 0 {
      var y := s[i];
      assert multiset(s)[y] == multiset(tail)[y] + (if y == s[0] then 1 else 0);
      assert multiset(r)[y] == multiset(rest)[y] + (if keep && y == s[0] then 1 else 0);
      if y in tail {
        var j :| 0 <= j < |tail| && tail[j] == y;
      } else {
        assert y !in rest;
      }
    }
  }

  /** The comprehension keeps every passing element as often as it occurs, and no other. */
  lemma {:induction false} FilterCounts<T>(s: seq<T>, p: T -> bool)
    ensures forall i :: 0 <= i < |s| ==> multiset(Filter(s, p))[s[i]] == if p(s[i]) then multiset(s)[s[i]] else 0
    decreases |s|
  {
    if |s| > 0 {
      FilterCounts(s[1..], p);
      CountsStep(s, p(s[0]), Filter(s[1..], p), p);
    }
  }

  /**
   `[x for x in s if p(x)]` where evaluating `p` may raise (`None`): the first
   raise ends the comprehension, so there is no list exactly when some element
   raises, and otherwise the list is the plain comprehension over the elements
   for which `p` returned true.
   */
  function TryFilter<T>(s: seq<T>, p: T -> Option<bool>): (r: Option<seq<T>>)
    ensures r.None? <==> exists i :: 0 <= i < |s| && p(s[i]).None?
    ensures r.Some? ==> r.value == Filter(s, Accepts(p))
    decreases |s|
  {
    if |s| == 0 then Some([])
    else
      var verdict := p(s[0]);
      var rest := TryFilter(s[1..], p);
      assert forall i :: 1 <= i < |s| ==> s[i] == s[1..][i - 1];
      if verdict.None? || rest.None? then None
      else Some((if verdict.value then [s[0]] else []) + rest.value)
  }

  /** The elements a possibly-raising test returned true for. */
  function Accepts<T>(p: T -> Option<bool>): T -> bool
  {
    x => p(x) == Some(true)
  }

  /** `Some(x)`, as a function value. */
  function Wrap<T>(x: T): Option<T>
  {
    Some(x)
  }

  predicate IsSome<T>(o: Option<T>)
  {
    o.Some?
  }

  /**
   `[x for x in s if x is not None]`: wrapping the values again gives exactly
   the present entries of `s`, in order and with their multiplicities.
   */
  function Somes<T>(s: seq<Option<T>>): (r: seq<T>)
    ensures Map(r, Wrap) == Filter(s, IsSome)
    ensures |r| <= |s|
  {
    if |s| == 0 then []
    else
      var rest := Somes(s[1..]);
      if s[0].Some? then
        assert Map([s[0].value] + rest, Wrap) == [s[0]] + Map(rest, Wrap);
        [s[0].value] + rest
      else rest
  }

  /** Index of the first element at or after `from` that passes `p`, scanning in order. */
  function FirstIndex<T>(s: seq<T>, p: T -> bool, from: nat): (r: Option<nat>)
    requires from <= |s|
    ensures r.Some? ==> from <= r.value < |s| && p(s[r.value])
    ensures r.Some? ==> forall j :: from <= j < r.value ==> !p(s[j])
    ensures r.None? <==> forall j :: from <= j < |s| ==> !p(s[j])
    decreases |s| - from
  {
    if from == |s| then None
    else if p(s[from]) then Some(from)
    else FirstIndex(s, p, from + 1)
  }

  /** Scans with tests that agree on every element stop at the same place. */
  lemma {:induction false} FirstIndexAgrees<T>(s: seq<T>, p1: T -> bool, p2: T -> bool, from: nat)
    requires from <= |s|
    requires forall j :: from <= j < |s| ==> p1(s[j]) == p2(s[j])
    ensures FirstIndex(s, p1, from) == FirstIndex(s, p2, from)
    decreases |s| - from
  {
    if from < |s| && !p1(s[from]) {
      FirstIndexAgrees(s, p1, p2, from + 1);
    }
  }

  function Sum(xs: seq<real>): real
  {
    if |xs| == 0 then 0.0 else xs[0] + Sum(xs[1..])
  }

  /** Python's normalisation of a slice bound `i` against a list of length `n`:
      a negative bound counts from the end, and both ends are clamped. */
  function SliceBound(i: int, n: nat): (k: nat)
    ensures k <= n
    ensures 0 <= i ==> k == if i < n then i else n
    ensures i < 0 ==> k == if n + i < 0 then 0 else n + i
  {
    if i < 0 then (if n + i < 0 then 0 else n + i)
    else if i < n then i
    else n
  }

  /** `s[:stop]` */
  function PyPrefix<T>(s: seq<T>, stop: int): (r: seq<T>)
    ensures IsPrefix(r, s)
    ensures |r| == SliceBound(stop, |s|)
  {
    s[..SliceBound(stop, |s|)]
  }

  /** `s[start:]` */
  function PySuffix<T>(s: seq<T>, start: int): (r: seq<T>)
    ensures IsSuffix(r, s)
    ensures |r| == |s| - SliceBound(start, |s|)
  {
    s[SliceBound(start, |s|)..]
  }

  /** `s[:i] + s[i:] == s` for every `i`, negative or out of range. */
  lemma PySliceSplit<T>(s: seq<T>, i: int)
    ensures PyPrefix(s, i) + PySuffix(s, i) == s
  {
    var k := SliceBound(i, |s|);
    assert s[..k] + s[k..] == s;
  }

  /**
   The key list of an `OrderedDict` holding `keys` after `update` with `xs`:
   each element of `xs` not yet present is appended, in the order met.
   `OrderedDict.fromkeys(xs)` is `AddKeys([], xs)`.
   */
  function AddKeys<T(==)>(keys: seq<T>, xs: seq<T>): (r: seq<T>)
    ensures IsPrefix(keys, r)
    ensures Elems(r) == Elems(keys) + Elems(xs)
    ensures NoDup(keys) ==> NoDup(r)
    ensures forall i :: |keys| <= i < |r| ==> r[i] !in keys && r[i] in xs
    decreases |xs|
  {
    if |xs| == 0 then keys
    else AddKeys(if xs[0] in keys then keys else keys + [xs[0]], xs[1..])
  }

  /** Elements of `xs` with later duplicates removed, in first-seen order. */
  function FirstSeen<T(==)>(xs: seq<T>): seq<T>
  {
    AddKeys([], xs)
  }

  lemma {:induction false} AddKeysAppend<T>(keys: seq<T>, a: seq<T>, b: seq<T>)
    ensures AddKeys(keys, a + b) == AddKeys(AddKeys(keys, a), b)
    decreases |a|
  {
    if |a| == 0 {
      assert a + b == b;
    } else {
      assert (a + b)[0] == a[0];
      assert (a + b)[1..] == a[1..] + b;
      AddKeysAppend(if a[0] in keys then keys else keys + [a[0]], a[1..], b);
    }
  }

  /** Adding the keys of `OrderedDict.fromkeys(xs)` adds the same keys as adding `xs` itself. */
  lemma {:induction false} AddKeysOfAddKeys<T>(keys: seq<T>, p: seq<T>, xs: seq<T>)
    ensures AddKeys(keys, AddKeys(p, xs)) == AddKeys(AddKeys(keys, p), xs)
    decreases |xs|
  {
    if |xs| == 0 {
    } else if xs[0] in p {
      assert xs[0] in Elems(AddKeys(keys, p));
      AddKeysOfAddKeys(keys, p, xs[1..]);
    } else {
      AddKeysOfAddKeys(keys, p + [xs[0]], xs[1..]);
      AddKeysAppend(keys, p, [xs[0]]);
      assert AddKeys(AddKeys(keys, p), [xs[0]])
          == (if xs[0] in AddKeys(keys, p) then AddKeys(keys, p) else AddKeys(keys, p) + [xs[0]]);
    }
  }

  lemma NoDupTail<T>(xs: seq<T>)
    requires NoDup(xs) && |xs| > 0
    ensures NoDup(xs[1..])
  {
    forall i, j | 0 <= i < j < |xs[1..]| ensures xs[1..][i] != xs[1..][j] {
      assert xs[1..][i] == xs[i + 1] && xs[1..][j] == xs[j + 1];
    }
  }

  lemma FreshTail<T>(keys: seq<T>, xs: seq<T>)
    requires NoDup(xs) && |xs| > 0
    requires forall i :: 0 <= i < |xs| ==> xs[i] !in keys
    ensures forall i :: 0 <= i < |xs[1..]| ==> xs[1..][i] !in keys + [xs[0]]
  {
    forall i | 0 <= i < |xs[1..]| ensures xs[1..][i] !in keys + [xs[0]] {
      assert xs[1..][i] == xs[i + 1] && xs[0] != xs[i + 1];
    }
  }

  lemma AddKeysStep<T>(keys: seq<T>, xs: seq<T>)
    requires |xs| > 0 && xs[0] !in keys
    ensures AddKeys(keys, xs) == AddKeys(keys + [xs[0]], xs[1..])
  {
  }

  lemma ConsTail<T>(keys: seq<T>, xs: seq<T>)
    requires |xs| > 0
    ensures keys + [xs[0]] + xs[1..] == keys + xs
  {
  }

  /** Elements that are pairwise distinct and not yet keys are appended as they are. */
  lemma {:induction false} AddKeysFresh<T>(keys: seq<T>, xs: seq<T>)
    requires NoDup(xs)
    requires forall i :: 0 <= i < |xs| ==> xs[i] !in keys
    ensures AddKeys(keys, xs) == keys + xs
    decreases |xs|
  {
    if |xs| > 0 {
      AddKeysStep(keys, xs);
      NoDupTail(xs);
      FreshTail(keys, xs);
      AddKeysFresh(keys + [xs[0]], xs[1..]);
      ConsTail(keys, xs);
    }
  }

  /** A key appended after the head was handled lies in the tail and differs from the head. */
  lemma AddKeysTailIndex<T>(keys: seq<T>, xs: seq<T>, i: nat)
    requires |xs| > 0
    requires var keys' := if xs[0] in keys then keys else keys + [xs[0]];
      |keys'| <= i < |AddKeys(keys', xs[1..])|
    ensures var r := AddKeys(if xs[0] in keys then keys else keys + [xs[0]], xs[1..]);
      r[i] != xs[0] && IndexOf(xs, r[i]) == 1 + IndexOf(xs[1..], r[i])
  {
    var keys' := if xs[0] in keys then keys else keys + [xs[0]];
    var r := AddKeys(keys', xs[1..]);
    assert xs[0] in keys' && r[i] !in keys';
    assert r[i] in xs[1..];
    IndexOfTail(xs, r[i]);
  }

  lemma {:induction false} AddKeysOrderAt<T>(keys: seq<T>, xs: seq<T>, i: nat, j: nat)
    requires |keys| <= i < j < |AddKeys(keys, xs)|
    ensures IndexOf(xs, AddKeys(keys, xs)[i]) < IndexOf(xs, AddKeys(keys, xs)[j])
    decreases |xs|
  {
    if |xs| > 0 {
      var x := xs[0];
      var keys' := if x in keys then keys else keys + [x];
      var r := AddKeys(keys, xs);
      assert r == AddKeys(keys', xs[1..]);
      if i < |keys'| {
        assert r[..|keys'|] == keys' && r[i] == x && IndexOf(xs, x) == 0;
        AddKeysTailIndex(keys, xs, j);
      } else {
        AddKeysTailIndex(keys, xs, i);
        AddKeysTailIndex(keys, xs, j);
        AddKeysOrderAt(keys', xs[1..], i, j);
      }
    }
  }

  /** The keys `AddKeys` appends come in the order of their first occurrence in `xs`. */
  lemma AddKeysFirstSeenOrder<T>(keys: seq<T>, xs: seq<T>)
    ensures var r := AddKeys(keys, xs);
      forall i, j :: |keys| <= i < j < |r| ==> IndexOf(xs, r[i]) < IndexOf(xs, r[j])
  {
    var r := AddKeys(keys, xs);
    forall i, j | |keys| <= i < j < |r| ensures IndexOf(xs, r[i]) < IndexOf(xs, r[j]) {
      AddKeysOrderAt(keys, xs, i, j);
    }
  }

  lemma IndexOfTail<T>(xs: seq<T>, x: T)
    requires x in xs && xs[0] != x
    ensures x in xs[1..] && IndexOf(xs, x) == 1 + IndexOf(xs[1..], x)
  {
  }

  /** Some listing of a finite set, as Python's `list(a_set)`: each element once, in an order the model leaves open. */
  ghost function SetToList<T>(s: set<T>): (r: seq<T>)
    ensures NoDup(r)
    ensures Elems(r) == s
    decreases s
  {
    if s == {} then []
    else
      var x :| x in s;
      var rest := SetToList(s - {x});
      assert Elems([x] + rest) == {x} + Elems(rest);
      [x] + rest
  }
}

=== FILE: simulation_manager.dfy ===
/**
 main.py `SimulationManager.start_simulations`: take the last `num_coins`
 coins of the coin list and start one coin simulation per coin, each with an
 equal share of the budget. The tasks run concurrently in the source; the
 model lists the simulations in the order they are started.
 */
module SimulationManager {
  import opened Wrappers
  import opened Seqs

  /** One `CoinTradeSimulator(coin, start_time, amount_per_coin, target_price)`. */
  datatype Launch = Launch(coin: string, startTime: int, amount: real, target: real)

  /** The coin list: the file's contents, or empty when it is missing. */
  function LoadCoins(coinsFile: Option<seq<string>>): (coins: seq<string>)
    ensures coinsFile.None? ==> coins == []
    ensures coinsFile.Some? ==> coins == coinsFile.value
  {
    coinsFile.GetOr([])
  }

  /** `coins[-num_coins:]` */
  function SelectCoins(coins: seq<string>, numCoins: int): (selected: seq<string>)
    ensures IsSuffix(selected, coins)
    ensures numCoins >= 1 ==> |selected| == if numCoins < |coins| then numCoins else |coins|
    ensures numCoins == 0 ==> selected == coins
  {
    PySuffix(coins, -numCoins)
  }

  /**
   The simulations started, or `None` when the selection is empty and the
   budget split divides by zero.
   */
  function StartSimulations(coinsFile: Option<seq<string>>, numCoins: int, startTime: int, amountUsd: real, target: real)
    : (r: Option<seq<Launch>>)
    ensures var selected := SelectCoins(LoadCoins(coinsFile), numCoins);
      && (r.None? <==> |selected| == 0)
      && (r.Some? ==>
            && |r.value| == |selected|
            && forall i :: 0 <= i < |r.value| ==>
                 r.value[i] == Launch(selected[i], startTime, amountUsd / (|selected| as real), target))
  {
    var coins := SelectCoins(LoadCoins(coinsFile), numCoins);
    if |coins| == 0 then None
    else
      var share := amountUsd / (|coins| as real);
      Some(Map(coins, coin => Launch(coin, startTime, share, target)))
  }

  /** A missing coins file always ends in the division by zero. */
  lemma MissingCoinsFileFails(numCoins: int, startTime: int, amountUsd: real, target: real)
    ensures StartSimulations(None, numCoins, startTime, amountUsd, target).None?
  {
  }

  function Amounts(launches: seq<Launch>): seq<real>
  {
    Map(launches, (l: Launch) => l.amount)
  }

  lemma {:induction false} SumOfEqualShares(launches: seq<Launch>, share: real)
    requires forall i :: 0 <= i < |launches| ==> launches[i].amount == share
    ensures Sum(Amounts(launches)) == (|launches| as real) * share
    decreases |launches|
  {
    if |launches| > 0 {
      assert Amounts(launches)[1..] == Amounts(launches[1..]);
      SumOfEqualShares(launches[1..], share);
    }
  }

  /** The shares handed to the coin simulations add up to the whole budget. */
  lemma SharesSumToBudget(coinsFile: Option<seq<string>>, numCoins: int, startTime: int, amountUsd: real, target: real)
    requires StartSimulations(coinsFile, numCoins, startTime, amountUsd, target).Some?
    ensures Sum(Amounts(StartSimulations(coinsFile, numCoins, startTime, amountUsd, target).value)) == amountUsd
  {
    var launches := StartSimulations(coinsFile, numCoins, startTime, amountUsd, target).value;
    var n := |launches| as real;
    SumOfEqualShares(launches, amountUsd / n);
    assert n * (amountUsd / n) == amountUsd;
  }
}

=== FILE: stable_sort.dfy ===
/**
 Python's `sorted(xs, key=...)` on an integer key: a stable sort. It is modelled
 as an insertion sort and characterised independently of that algorithm: the
 result is ordered by key, and for every key value it keeps the elements
 carrying that key in their input order. Those two facts determine it.
 */
module StableSort {

  ghost predicate SortedBy<T>(s: seq<T>, key: T -> int)
  {
    forall i, j :: 0 <= i < j < |s| ==> key(s[i]) <= key(s[j])
  }

  /** The elements of `s` whose key is `k`, in their order in `s`. */
  function KeyGroup<T>(s: seq<T>, key: T -> int, k: int): seq<T>
  {
    if |s| == 0 then []
    else if key(s[0]) == k then [s[0]] + KeyGroup(s[1..], key, k)
    else KeyGroup(s[1..], key, k)
  }

  /** Places `x` in front of the first element whose key is not smaller. */
  function Insert<T>(x: T, s: seq<T>, key: T -> int): (r: seq<T>)
    ensures |r| == |s| + 1
    ensures multiset(r) == multiset(s) + multiset{x}
    ensures forall i :: 0 <= i < |r| ==> r[i] == x || r[i] in s
  {
    if |s| == 0 || key(x) <= key(s[0]) then [x] + s
    else
      var rest := Insert(x, s[1..], key);
      assert s == [s[0]] + s[1..];
      [s[0]] + rest
  }

  lemma SortedCons<T>(y: T, s: seq<T>, key: T -> int)
    requires SortedBy(s, key)
    requires forall j :: 0 <= j < |s| ==> key(y) <= key(s[j])
    ensures SortedBy([y] + s, key)
  {
    var r := [y] + s;
    forall i, j | 0 <= i < j < |r| ensures key(r[i]) <= key(r[j]) {
      assert r[j] == s[j - 1];
      if i > 0 {
        assert r[i] == s[i - 1];
      }
    }
  }

  /** A lower bound on the keys of `x` and of `s` bounds the keys of the insertion. */
  lemma {:induction false} InsertLowerBound<T>(x: T, s: seq<T>, key: T -> int, b: int)
    requires b <= key(x)
    requires forall j :: 0 <= j < |s| ==> b <= key(s[j])
    ensures forall j :: 0 <= j < |s| + 1 ==> b <= key(Insert(x, s, key)[j])
    decreases |s|
  {
    var r := Insert(x, s, key);
    if |s| > 0 && key(x) > key(s[0]) {
      var rest := Insert(x, s[1..], key);
      assert r == [s[0]] + rest;
      InsertLowerBound(x, s[1..], key, b);
      forall j | 0 <= j < |s| + 1 ensures b <= key(r[j]) {
        if j > 0 {
          assert r[j] == rest[j - 1];
        }
      }
    }
  }

  lemma {:induction false} InsertSorted<T>(x: T, s: seq<T>, key: T -> int)
    requires SortedBy(s, key)
    ensures SortedBy(Insert(x, s, key), key)
    decreases |s|
  {
    if |s| == 0 || key(x) <= key(s[0]) {
      SortedCons(x, s, key);
    } else {
      var tail := s[1..];
      assert SortedBy(tail, key) by {
        forall i, j | 0 <= i < j < |tail| ensures key(tail[i]) <= key(tail[j]) {
          assert tail[i] == s[i + 1] && tail[j] == s[j + 1];
        }
      }
      InsertSorted(x, tail, key);
      forall j | 0 <= j < |tail| ensures key(s[0]) <= key(tail[j]) {
        assert tail[j] == s[j + 1];
      }
      InsertLowerBound(x, tail, key, key(s[0]));
      SortedCons(s[0], Insert(x, tail, key), key);
    }
  }

  function SortBy<T>(s: seq<T>, key: T -> int): (r: seq<T>)
    ensures |r| == |s|
    ensures multiset(r) == multiset(s)
    ensures SortedBy(r, key)
  {
    if |s| == 0 then []
    else
      assert s == [s[0]] + s[1..];
      InsertSorted(s[0], SortBy(s[1..], key), key);
      Insert(s[0], SortBy(s[1..], key), key)
  }

  lemma {:induction false} InsertGroups<T>(x: T, s: seq<T>, key: T -> int, k: int)
    ensures KeyGroup(Insert(x, s, key), key, k)
         == (if key(x) == k then [x] else []) + KeyGroup(s, key, k)
    decreases |s|
  {
    if |s| == 0 || key(x) <= key(s[0]) {
      var r := Insert(x, s, key);
      assert r[1..] == s;
    } else {
      var r := Insert(x, s, key);
      assert r[0] == s[0] && r[1..] == Insert(x, s[1..], key);
      InsertGroups(x, s[1..], key, k);
    }
  }

  /** Stability: elements with equal keys keep their input order. */
  lemma {:induction false} SortByStable<T>(s: seq<T>, key: T -> int, k: int)
    ensures KeyGroup(SortBy(s, key), key, k) == KeyGroup(s, key, k)
    decreases |s|
  {
    if |s| > 0 {
      SortByStable(s[1..], key, k);
      InsertGroups(s[0], SortBy(s[1..], key), key, k);
    }
  }

  lemma KeyGroupOfHead<T>(s: seq<T>, key: T -> int)
    requires |s| > 0
    ensures KeyGroup(s, key, key(s[0])) == [s[0]] + KeyGroup(s[1..], key, key(s[0]))
  {
  }

  lemma {:induction false} KeyGroupBelowSorted<T>(s: seq<T>, key: T -> int, k: int)
    requires SortedBy(s, key)
    requires |s| > 0 && k < key(s[0])
    ensures KeyGroup(s, key, k) == []
    decreases |s|
  {
    if |s| > 1 {
      KeyGroupBelowSorted(s[1..], key, k);
    }
  }

  /** Two key-sorted sequences with the same key groups are equal. */
  lemma {:induction false} SortedGroupsDetermine<T>(r1: seq<T>, r2: seq<T>, key: T -> int)
    requires SortedBy(r1, key) && SortedBy(r2, key)
    requires forall k :: KeyGroup(r1, key, k) == KeyGroup(r2, key, k)
    ensures r1 == r2
    decreases |r1| + |r2|
  {
    if |r1| == 0 && |r2| == 0 {
    } else if |r1| == 0 {
      KeyGroupOfHead(r2, key);
      assert false;
    } else if |r2| == 0 {
      KeyGroupOfHead(r1, key);
      assert false;
    } else {
      var k1, k2 := key(r1[0]), key(r2[0]);
      KeyGroupOfHead(r1, key);
      KeyGroupOfHead(r2, key);
      if k1 < k2 {
        KeyGroupBelowSorted(r2, key, k1);
        assert false;
      } else if k2 < k1 {
        KeyGroupBelowSorted(r1, key, k2);
        assert false;
      } else {
        assert KeyGroup(r1, key, k1) == KeyGroup(r2, key, k1);
        assert KeyGroup(r1, key, k1)[0] == r1[0];
        assert KeyGroup(r2, key, k1)[0] == r2[0];
        forall k
          ensures KeyGroup(r1[1..], key, k) == KeyGroup(r2[1..], key, k)
        {
          assert KeyGroup(r1, key, k) == KeyGroup(r2, key, k);
          if k == k1 {
            assert [r1[0]] + KeyGroup(r1[1..], key, k) == [r2[0]] + KeyGroup(r2[1..], key, k);
            assert ([r1[0]] + KeyGroup(r1[1..], key, k))[1..] == KeyGroup(r1[1..], key, k);
            assert ([r2[0]] + KeyGroup(r2[1..], key, k))[1..] == KeyGroup(r2[1..], key, k);
          }
        }
        SortedGroupsDetermine(r1[1..], r2[1..], key);
        assert r1 == [r1[0]] + r1[1..] && r2 == [r2[0]] + r2[1..];
      }
    }
  }

  /**
   Any key-sorted arrangement that keeps every key group in input order is the
   result of `SortBy`: the model agrees with Python's `sorted` whatever algorithm
   Python uses, because a stable sort has only one possible result.
   */
  lemma StableSortIsUnique<T>(s: seq<T>, r: seq<T>, key: T -> int)
    requires SortedBy(r, key)
    requires forall k :: KeyGroup(r, key, k) == KeyGroup(s, key, k)
    ensures r == SortBy(s, key)
  {
    forall k
      ensures KeyGroup(r, key, k) == KeyGroup(SortBy(s, key), key, k)
    {
      SortByStable(s, key, k);
    }
    SortedGroupsDetermine(r, SortBy(s, key), key);
  }
}

=== FILE: symbol_criteria.dfy ===
/**
 src/criterias.py `meets_criteria`: the four-clause screen over an exchange
 symbol record. The verdict is `None` when `float()` rejects the percentage.
 */
module SymbolCriteria {
  import opened Wrappers
  import opened BinanceWork

  /** The keys the screen reads from a symbol record. */
  datatype SymbolRecord = SymbolRecord(status: string, baseAssetPrecision: int, quoteAsset: string, priceChangePercent: Numeric)

  const RequiredPrecision: int := 8
  const MinPriceChangePercent: real := 10.0

  /**
   The status must be `TRADING`, the base asset precision 8 and the quote
   asset `USDT`; a price change below 10 percent rejects, so 10 itself passes.
   */
  function MeetsCriteria(rec: SymbolRecord): (r: Option<bool>)
    ensures r == Some(true) <==>
              && rec.status == "TRADING"
              && rec.baseAssetPrecision == RequiredPrecision
              && rec.quoteAsset == "USDT"
              && rec.priceChangePercent.Num? && rec.priceChangePercent.value >= MinPriceChangePercent
    ensures r.None? <==>
              && rec.status == "TRADING"
              && rec.baseAssetPrecision == RequiredPrecision
              && rec.quoteAsset == "USDT"
              && rec.priceChangePercent.NotANumber?
  {
    if rec.status != "TRADING" then Some(false)
    else if rec.baseAssetPrecision != RequiredPrecision then Some(false)
    else if rec.quoteAsset != "USDT" then Some(false)
    else match rec.priceChangePercent
      case NotANumber => None
      case Num(p) => Some(!(p < MinPriceChangePercent))
  }

  /** Exactly 10 percent passes; just below it fails. */
  lemma TenPercentPasses()
    ensures MeetsCriteria(SymbolRecord("TRADING", 8, "USDT", Num(10.0))) == Some(true)
    ensures MeetsCriteria(SymbolRecord("TRADING", 8, "USDT", Num(9.99))) == Some(false)
  {
  }
}

=== FILE: trading_pair_lists.dfy ===
/**
 src/get_all_trading_pairs.py: the other pair-list pipeline. It reads the
 trading-pair list from its file or fetches and writes it, extends a list
 with its own elements that the file does not know, and screens the pairs.
 The screen it imports is not defined in that directory, so here it is a
 parameter; the exchange's symbol list is an input.
 */
module TradingPairLists {
  import opened Wrappers
  import opened Seqs

  /** What `load_or_fetch_data` returns, what it wrote, and whether it called the fetch. */
  datatype Loaded = Loaded(data: seq<string>, written: Option<seq<string>>, fetchCalled: bool)

  /** `load_or_fetch_data`: the file's list, or the fetched list, written to the file. */
  function LoadOrFetchData(file: Option<seq<string>>, fetched: seq<string>): (r: Loaded)
    ensures r.fetchCalled <==> file.None?
    ensures file.Some? ==> r.data == file.value && r.written.None?
    ensures file.None? ==> r.data == fetched && r.written == Some(r.data)
  {
    match file
    case Some(contents) => Loaded(contents, None, false)
    case None => Loaded(fetched, Some(fetched), true)
  }

  /** What `update_data` returns and what it wrote. */
  datatype Updated = Updated(data: seq<string>, written: Option<seq<string>>)

  /**
   `update_data`. With the file present, the list grows by its own elements
   the file does not hold (each once, in an order the model leaves open) and
   nothing is written. With no file, `fetch_func()` is returned and written;
   `fetch` is `None` when that call raises.
   */
  ghost function UpdateData(file: Option<seq<string>>, data: seq<string>, fetch: Option<seq<string>>): (r: Option<Updated>)
    ensures file.Some? ==>
              && r.Some? && r.value.written.None?
              && IsPrefix(data, r.value.data)
              && NoDup(r.value.data[|data|..])
              && Elems(r.value.data[|data|..]) == Elems(data) - Elems(file.value)
    ensures file.None? ==> (r.None? <==> fetch.None?)
    ensures file.None? && r.Some? ==> r.value.data == fetch.value && r.value.written == Some(fetch.value)
  {
    match file
    case Some(previous) =>
      var added := SetToList(Elems(data) - Elems(previous));
      assert (data + added)[|data|..] == added;
      Some(Updated(data + added, None))
    case None =>
      match fetch
      case None => None
      case Some(f) => Some(Updated(f, Some(f)))
  }

  /** A list whose elements the file already holds comes back unchanged. */
  lemma UpdateKeepsKnownData(file: seq<string>, data: seq<string>, fetch: Option<seq<string>>)
    requires Elems(data) <= Elems(file)
    ensures UpdateData(Some(file), data, fetch).value.data == data
  {
    assert Elems(data) - Elems(file) == {};
    assert SetToList(Elems(data) - Elems(file)) == [];
  }

  /**
   The extension does not de-duplicate against the list itself: an element
   of the list that the file lacks occurs once more in the result.
   */
  lemma UpdateDuplicatesNewElements(file: seq<string>, data: seq<string>, fetch: Option<seq<string>>, x: string)
    requires x in data && x !in file
    ensures Count(UpdateData(Some(file), data, fetch).value.data, x) == Count(data, x) + 1
    ensures Count(UpdateData(Some(file), data, fetch).value.data, x) >= 2
  {
    var r := UpdateData(Some(file), data, fetch).value.data;
    var added := r[|data|..];
    assert r == data + added;
    assert x in Elems(added);
    NoDupCountOne(added, x);
  }

  lemma {:induction false} NoDupCountOne<T>(s: seq<T>, x: T)
    requires NoDup(s) && x in s
    ensures Count(s, x) == 1
    decreases |s|
  {
    assert s == [s[0]] + s[1..];
    if s[0] == x {
      assert forall j :: 0 <= j < |s[1..]| ==> s[1..][j] == s[j + 1] != s[0];
      assert x !in s[1..];
    } else {
      NoDupCountOne(s[1..], x);
    }
  }

  /** `get_valid_pairs`: the pairs the screen accepts, in their order. */
  function GetValidPairs(pairs: seq<string>, meets: string -> bool): (r: seq<string>)
    ensures IsSubseq(r, pairs)
    ensures forall i :: 0 <= i < |r| ==> meets(r[i])
    ensures forall i :: 0 <= i < |pairs| && meets(pairs[i]) ==> pairs[i] in r
    ensures forall i :: 0 <= i < |pairs| ==> multiset(r)[pairs[i]] == if meets(pairs[i]) then multiset(pairs)[pairs[i]] else 0
  {
    FilterCounts(pairs, meets);
    Filter(pairs, meets)
  }

  /** Both files after `get_all_trading_pairs`, and the valid pairs it returns. */
  datatype PairFiles = PairFiles(tradingPairs: Option<seq<string>>, validPairs: Option<seq<string>>)
  datatype Outcome = Finished(files: PairFiles, validPairs: seq<string>) | PipelineRaised(files: PairFiles)

  /**
   `get_all_trading_pairs`. The second `update_data` on the valid-pairs file
   passes `get_valid_pairs` itself as the fetch, called without arguments,
   which raises whenever that file is missing. By then a missing
   trading-pairs file has already been written with the fetched list; the
   valid-pairs file is never written.
   */
  ghost function GetAllTradingPairs(files: PairFiles, fetched: seq<string>, meets: string -> bool): (r: Outcome)
    ensures r.PipelineRaised? <==> files.validPairs.None?
    ensures r.files.tradingPairs == if files.tradingPairs.None? then Some(fetched) else files.tradingPairs
    ensures r.files.validPairs == files.validPairs
  {
    var loaded := LoadOrFetchData(files.tradingPairs, fetched);
    var tradingFile := if loaded.written.Some? then loaded.written else files.tradingPairs;
    var trading := UpdateData(tradingFile, loaded.data, Some(fetched)).value.data;
    var valid := GetValidPairs(trading, meets);
    match UpdateData(files.validPairs, valid, None)
    case None => PipelineRaised(PairFiles(tradingFile, files.validPairs))
    case Some(u) => Finished(PairFiles(tradingFile, files.validPairs), u.data)
  }

  /**
   The trading-pair list survives the pipeline's own update unchanged: the
   file it is checked against is the one it was read from, or has just been
   written with it. Valid pairs are screened from that list only.
   */
  lemma PipelineScreensLoadedList(files: PairFiles, fetched: seq<string>, meets: string -> bool)
    requires files.validPairs.Some?
    ensures var loaded := LoadOrFetchData(files.tradingPairs, fetched).data;
      var valid := GetValidPairs(loaded, meets);
      && IsPrefix(valid, GetAllTradingPairs(files, fetched, meets).validPairs)
      && (files.tradingPairs.None? ==> loaded == fetched)
  {
    var loaded := LoadOrFetchData(files.tradingPairs, fetched);
    var tradingFile := if loaded.written.Some? then loaded.written else files.tradingPairs;
    UpdateKeepsKnownData(tradingFile.value, loaded.data, Some(fetched));
  }
}

=== FILE: wrappers.dfy ===
/** Optional values: Python's `None` versus a present value. */
module Wrappers {

  datatype Option<+T> = None | Some(value: T) {

    /** The value, or `default` when there is none. */
    function GetOr(default: T): T
    {
      match this
      case Some(v) => v
      case None => default
    }
  }
}
